=== FILE: README.md ===
# Task manager client: the decision logic, in Dafny

This project models the decision logic of a React task-manager client. The logic sits
between the rendering and the network calls. It covers:

- **The quick-add parser.** Free text becomes a suggested task. The priority comes from
  keyword substring search. A relative due date comes from phrase patterns. The input
  box keeps the suggestion, and Add Task emits it.
- **The path dispatcher.** It sends the browser path to one of five pages.
- **The URL joiner** and the endpoint table.
- **The analytics figures.** These are the status counts, the overdue, high-priority and
  created-today counts, and the completion percentage.
- **The snooze panel.** This covers the list of snoozed tasks and its count badge. It
  also covers the snooze options (the preset delays, "tomorrow 9am" and "next Monday")
  and the snooze handler. The rendered panel never shows the options and never calls
  the handler, so they cannot be reached from it.
- **The dashboard's task list.**
  - Create, update and delete, each with its token guard and its handling of the reply.
  - The status filter, the header counts and the quick-add payload.
  - The mount guard and the task fetch.
- **The kanban board.** This covers the drag-and-drop state machine, the columns and
  the priority colours.
- **The task card and the task list.** This covers the edit form and its schema, the
  status toggle, delete, and the single-editor rule.
- **The session manager.** It keeps three fixed sessions. It covers revoke, the device
  classification, the overview counts and the plural label.
- **The forms.** These are the login, register, update-profile, change-password and
  create-task schemas, with the outcome of each submit.

Everything is a pure function over immutable datatypes. The clock reading `now`, local
storage and the settled reply of each request are parameters:

- A `Reply` is either `Threw` (the request or its JSON body failed) or
  `Replied(ok, status, body)`.
- Instants are integers. They count milliseconds on the local wall clock.
- Schemas yield lists of `Issue(path, message)`. A field shows the message of its first
  issue.

Modules follow the program's files:

| Module | Source file |
|---|---|
| `Parser` | `natural-language-parser.tsx` |
| `Routes` | `App.tsx` |
| `Api` | `config/api.ts` |
| `Analytics` | `analytics-dashboard.tsx` |
| `Snooze` | `Snooze-manager.tsx` |
| `Kanban` | `kanban-board.tsx` |
| `Dashboard` | `dashboard/index.tsx` |
| `TaskCard` | `task-card.tsx` |
| `TaskList` | `task-list.tsx` |
| `Sessions` | `session-manager.tsx` |
| `Login` | `auth/login` |
| `Register` | `auth/register` |
| `Profile` | `profile` |
| `CreateTaskModal` | `create-task-modal.tsx` |

These modules rest on shared ones:

| Shared module | What it holds |
|---|---|
| `Wrappers` | Option |
| `Seqs` | order-preserving filter and count |
| `Text` | `includes`, `trim`, the two case foldings |
| `Calendar` | integer instants and the `Date` setters |
| `TaskModel` | the task record, its enums and `{...t, ...patch}` |
| `Browser` | storage, replies, `message \|\| fallback` |
| `Forms` | zod-style issues |
| `Auth` | what login and register share |

The parsed title is the input exactly as typed (`title: text`), and
`handleInputChange` passes the untrimmed value. `Parser.TypeThenAddTwice` proves that
the emitted title is the typed value.

## Model

| member | source | states |
|---|---|---|
| TaskModel.ParsePriority | src/components/dashboard/create-task-modal.tsx:10 | Accepts a string exactly when it is the name of a priority level, and then returns that level. |
| TaskModel.ParseRecurrence | src/components/dashboard/create-task-modal.tsx:11 | Accepts a string exactly when it is "none", "daily", "weekly" or "monthly", and returns the named recurrence. |
| TaskModel.StatusPatch | src/components/dashboard/task-card.tsx:115 | `{status: s}` sets the status and no other key. |
| TaskModel.Merge | src/dashboard/index.tsx:123 | In `{...t, ...updates}`, each key present in the patch takes the patch's value, and each absent key keeps the task's value. An explicit undefined clears an optional field. |
| TaskModel.MergeLaws | src/dashboard/index.tsx:123 | Spreading `{}` leaves a task unchanged. Spreading the same patch twice equals spreading it once. |
| Calendar.AddDays | src/components/dashboard/natural-language-parser.tsx:54-60 | `setDate(getDate()+n)` moves n calendar days at the same time of day. |
| Calendar.WeekDayAfter | src/components/dashboard/Snooze-manager.tsx:35-37 | Moving n days moves the weekday n places round the week. |
| Calendar.SetHours | src/components/dashboard/Snooze-manager.tsx:27 | `setHours(h, m, s, ms)` keeps the calendar day and sets the given wall-clock time. |
| Calendar.AddMonths | src/components/dashboard/natural-language-parser.tsx:62-64 | `setMonth(getMonth()+n)` keeps the time of day. |
| Calendar.AddMonthsOverflowExample | src/components/dashboard/natural-language-parser.tsx:63 | 31 January 2024 plus one month overflows to 2 March. |
| Calendar.AddMonthsYearEndExample | src/components/dashboard/natural-language-parser.tsx:63 | 15 December 2023 plus one month is 15 January 2024, at the same time of day. |
| Parser.AnyOccurs | src/components/dashboard/natural-language-parser.tsx:43 | `keywords.some(kw => text.includes(kw))` holds iff some keyword occurs as a substring. |
| Parser.TestPhrases | src/components/dashboard/natural-language-parser.tsx:31-34 | A literal-alternative `/i` pattern matches iff some alternative occurs in the ASCII-lower-cased text. |
| Parser.ExtractPriority | src/components/dashboard/natural-language-parser.tsx:24-47 | The priority is High iff a high keyword occurs in the lower-cased text. It is Medium iff none of those occurs and a medium keyword does, and Low likewise. It is absent iff no keyword of any level occurs. |
| Parser.ExtractDueDate | src/components/dashboard/natural-language-parser.tsx:30-65 | The first matching pattern decides: today, this evening or tonight give now; tomorrow gives now plus 1 day; next week or next monday give now plus 7 days; next month gives now plus 1 month. There is no due date iff none of the four patterns matches, so `specificDate` never contributes. |
| Parser.ParseTaskText | src/components/dashboard/natural-language-parser.tsx:38-69 | The title is the input verbatim, the description is never set, and the priority and due date are those extracted. |
| Parser.HandleInputChange | src/components/dashboard/natural-language-parser.tsx:72-80 | The box holds the typed value. The suggestion is absent iff the value is blank under JavaScript's `trim`; otherwise it is the parse of the untrimmed value. |
| Parser.HandleAddTask | src/components/dashboard/natural-language-parser.tsx:82-88 | With a suggestion: emits it and resets the box and the suggestion. Without one: emits nothing and changes nothing. |
| Parser.TypeThenAddTwice | src/components/dashboard/natural-language-parser.tsx:72-88 | Typing non-blank text, then pressing Add Task, emits the parse of that exact text once; a second press emits nothing. |
| Parser.HighPriorityExample | src/components/dashboard/natural-language-parser.tsx:25 | "Complete report urgent" is high priority. |
| Parser.MediumPriorityExample | src/components/dashboard/natural-language-parser.tsx:26 | "Review code medium priority" is medium priority, because no high keyword occurs in it. |
| Parser.LowPriorityExample | src/components/dashboard/natural-language-parser.tsx:27 | "Clean up backlog low" is low priority. |
| Parser.NoPriorityExample | src/components/dashboard/natural-language-parser.tsx:67 | "New task" gets no priority and keeps its title. |
| Parser.SubstringMatchExample | src/components/dashboard/natural-language-parser.tsx:43 | Matching is by substring: "Follow up" is low priority through "low" inside "follow". |
| Parser.TomorrowExample | src/components/dashboard/natural-language-parser.tsx:53-56 | "Meet with team tomorrow" is due one day after now. |
| Parser.TodayExample | src/components/dashboard/natural-language-parser.tsx:51-52 | "Finish project today" is due now. |
| Routes.RenderPage | src/App.tsx:14-31 | Each of Login, Register, Dashboard and Profile is selected iff the path equals its one path exactly. Every other string selects Home. |
| Routes.KnownRoutesResolve | src/App.tsx:15-30 | The six known paths select their pages. "/auth", "/dashboard/", "", "/DASHBOARD" and an unknown path select Home. |
| Routes.PreimagesAmongKnownPaths | src/App.tsx:15-30 | Among the known paths, Home has exactly two preimages ("/" and "/home"); every other page has exactly one. |
| Api.ApiUrl | src/config/api.ts:6 | The base is the configured value, or "http://localhost:4000" when that is unset or empty. |
| Api.CleanEndpoint | src/config/api.ts:13 | Removes exactly one leading slash when there is one. |
| Api.CleanBase | src/config/api.ts:15 | Removes exactly one trailing slash when there is one. |
| Api.GetApiUrl | src/config/api.ts:11-17 | The URL starts with the cleaned base plus "/" and ends with the cleaned endpoint. Its length is the sum of the parts' lengths, which pins it down. |
| Api.LeadingSlashOptional | src/config/api.ts:13 | For an endpoint not starting with "/", "/x" and "x" give the same URL. |
| Api.OneSlashStripped | src/config/api.ts:13-15 | A doubled slash on either side survives as a single one. |
| Api.NoDoubleSlashAtJoin | src/config/api.ts:13-16 | With at most one trailing slash on the base and at most one leading slash on the endpoint, the joining slash has no slash beside it. |
| Api.DefaultLoginUrl | src/config/api.ts:6-25 | With no configured base, the login endpoint is "http://localhost:4000/api/auth/login". |
| Api.TaskEndpointsAgree | src/config/api.ts:30-35 | UPDATE(id) and DELETE(id) are both "/api/tasks/" + id, LIST equals CREATE, and the profile read and update share one path. |
| Analytics.CompletionRate | src/components/dashboard/analytics-dashboard.tsx:22 | The rate is 0 with no tasks. Otherwise it is 100·completed/total rounded to the nearest integer with halves up. It never exceeds 100, and it is 100 when all tasks are completed. |
| Analytics.ComputeMetrics | src/components/dashboard/analytics-dashboard.tsx:17-35 | Each figure counts the tasks meeting its condition. The three status counts sum to the total, and every count is at most the total. |
| Analytics.CompletedNeverOverdue | src/components/dashboard/analytics-dashboard.tsx:25-28 | When every task is completed, none is overdue and the rate is 100. |
| Analytics.CompletionRateExamples | src/components/dashboard/analytics-dashboard.tsx:22 | 2 of 4 gives 50, 1 of 3 gives 33, 2 of 3 gives 67, 1 of 8 gives 13, and 0 of 0 gives 0. |
| Snooze.DaysToMonday | src/components/dashboard/Snooze-manager.tsx:35-36 | The offset lies in 1..7 and lands on a Monday (weekday 1 with Sunday 0). A Monday gives 7, never 0. |
| Snooze.TomorrowNine | src/components/dashboard/Snooze-manager.tsx:24-29 | The next calendar day at 09:00:00.000. |
| Snooze.NextMonday | src/components/dashboard/Snooze-manager.tsx:33-40 | A Monday 1 to 7 days ahead, at 09:00:00.000. |
| Snooze.HandleSnooze | src/components/dashboard/Snooze-manager.tsx:44-49 | One call for the given task. It uses the custom date when one is given; otherwise minutes from now, with absent or 0 minutes meaning 5. The open menu closes. |
| Snooze.PresetDelays | src/components/dashboard/Snooze-manager.tsx:19-21 | The presets are 5 and 60 minutes. Passing a preset's minutes to the handler snoozes for exactly that long. The rendered panel offers no way to do so. |
| Snooze.SnoozedTasks | src/components/dashboard/Snooze-manager.tsx:51-68 | Lists exactly the tasks with a snooze time. It is empty iff no task has one. Its length, shown on the badge, is the number of snoozed tasks. |
| Snooze.SnoozedTasksPieces | src/components/dashboard/Snooze-manager.tsx:51 | The list keeps task order and repeats: no tasks list nothing, one task is listed iff snoozed, and a concatenation is listed part by part. |
| Snooze.PanelShown | src/components/dashboard/Snooze-manager.tsx:51-53 | The panel renders iff some task is snoozed. |
| Kanban.HandleDragStart | src/components/dashboard/kanban-board.tsx:31-40 | Whatever was dragged before, the next drop acts on this task. A drop on another column moves it there and changes nothing else. A drop on its own column does nothing. |
| Kanban.HandleDrop | src/components/dashboard/kanban-board.tsx:35-40 | Issues an update iff a task is dragged and its status differs from the column. The update carries that task's id and only the new status. The drag always ends. |
| Kanban.DragThenDrop | src/components/dashboard/kanban-board.tsx:31-40 | A drop acts on the task the drag started with. Applying its update moves that task to the column and changes nothing else. |
| Kanban.TasksByStatus | src/components/dashboard/kanban-board.tsx:42 | A column holds exactly the tasks with its status. |
| Kanban.ColumnsPartition | src/components/dashboard/kanban-board.tsx:25-42 | The three column sizes sum to the task count. No tasks give three empty columns. Each column keeps list order, because filtering distributes over concatenation. |
| Kanban.PriorityColor | src/components/dashboard/kanban-board.tsx:44-55 | high gives red, medium yellow, low green, each both ways. Anything else, including no priority, gives gray. |
| Dashboard.Mount | src/dashboard/index.tsx:40-57 | Redirects to login iff the token or the stored user is missing or empty. Otherwise it shows the stored user and GETs "/api/tasks" with the stored token as bearer and no body. |
| Dashboard.AfterFetchTasks | src/dashboard/index.tsx:53-67 | An ok reply replaces the list by its tasks, or by the empty list when it has none. Any other outcome keeps the list. Loading ends. |
| Dashboard.CreateRequest | src/dashboard/index.tsx:80-86 | The body always has status pending. A missing or empty priority becomes "medium", and a missing or empty recurrence becomes "none". |
| Dashboard.HandleCreateTask | src/dashboard/index.tsx:69-97 | Without a token nothing happens and nothing is sent. With one, the composed body is POSTed to "/api/tasks" with the stored token as bearer. An ok reply prepends the returned task to the unchanged old list and closes the modal. Any other outcome leaves list and modal alone. |
| Dashboard.UpdateTasks | src/dashboard/index.tsx:123 | Same length. Tasks with the id are merged with the patch; all others are unchanged. |
| Dashboard.UpdateLaws | src/dashboard/index.tsx:123 | A patch without an id key keeps every id. An unknown id, or an empty patch, leaves the list unchanged. |
| Dashboard.HandleUpdateTask | src/dashboard/index.tsx:108-128 | Without a token nothing is sent and nothing changes. With one, a PUT goes to "/api/tasks/" + id carrying the stored token and the patch as its body. Only an ok reply merges that same patch into the list. |
| Dashboard.DeleteTasks | src/dashboard/index.tsx:141 | The result holds exactly the tasks whose id differs. |
| Dashboard.DeleteUnknownId | src/dashboard/index.tsx:141 | Deleting an id no task has leaves the list unchanged. |
| Dashboard.DeleteKeepsOrder | src/dashboard/index.tsx:141 | Deleting from a concatenation deletes from each part, so survivors keep their order. |
| Dashboard.HandleDeleteTask | src/dashboard/index.tsx:130-146 | Without a token nothing is sent and nothing changes. With one, a body-less DELETE goes to "/api/tasks/" + id carrying the stored token. Only an ok reply removes the task. |
| Dashboard.UpdateAndDeleteRequests | src/dashboard/index.tsx:113-137 | An update and a delete of one task share its address and token. They differ in method, and only the update carries a body, which is its patch. |
| Dashboard.TaskRequestsAgree | src/dashboard/index.tsx:40-137 | All four task requests carry the same stored token. The fetch (GET) and the create (POST) address the task collection "/api/tasks"; the update and the delete address its child "/api/tasks/" followed by the id. |
| Dashboard.FilteredTasks | src/dashboard/index.tsx:148-151 | "all" shows every task. "pending" and "completed" show exactly the tasks with that status, so in-progress tasks appear only under "all". |
| Dashboard.FilteredTasksPieces | src/dashboard/index.tsx:148-151 | The filtered list keeps task order and repeats: no tasks show nothing, one task shows iff its tab lists it, and a concatenation is filtered part by part. |
| Dashboard.Header | src/dashboard/index.tsx:170-172 | The completed count never exceeds the task count. |
| Dashboard.QuickAddArgs | src/dashboard/index.tsx:99-106 | Forwards the parsed title and the parsed priority's name, with "" when the description is absent and no recurrence. |
| Dashboard.QuickAddRequest | src/dashboard/index.tsx:80-102 | A quick-added task is posted with the typed text, an empty description, status pending, the parsed priority or "medium", and recurrence "none". |
| TaskCard.DefaultForm | src/components/dashboard/task-card.tsx:38-46 | The untouched form passes the schema iff the task has a title. Saving it changes nothing for a task with a description. A task without one gets the empty description, because its textarea has no default and reads as "". |
| TaskCard.ValidateEdit | src/components/dashboard/task-card.tsx:15-18 | The form is valid iff the title has at least one character. Otherwise the only issue is "Title is required" on the title. |
| TaskCard.EditPatch | src/components/dashboard/task-card.tsx:44 | A saved edit carries the title and description keys and no others. |
| TaskCard.OnSubmit | src/components/dashboard/task-card.tsx:43-46 | An invalid form fires nothing. A valid one fires `onUpdate(task.id, {title, description})` and then `onCancel`, in that order. |
| TaskCard.ToggleStatus | src/components/dashboard/task-card.tsx:115 | Completed goes to pending; pending and in-progress go to completed. |
| TaskCard.ToggleTwice | src/components/dashboard/task-card.tsx:115 | Toggling twice restores a pending or completed task. An in-progress task ends pending. |
| TaskCard.OnToggle | src/components/dashboard/task-card.tsx:115 | One update for this task's id. It carries no key but the status, and applied to the task it sets the toggled status and changes nothing else. |
| TaskCard.OnDelete | src/components/dashboard/task-card.tsx:48-56 | Delete fires one deletion. Handed to the dashboard, its id keeps exactly the tasks whose id differs from this task's. |
| TaskCard.SavedEditChangesTitleAndDescription | src/components/dashboard/task-card.tsx:43-46 | A valid save, merged into the task, changes exactly the title and the description. |
| TaskCard.SaveUnchanged | src/components/dashboard/task-card.tsx:38-46 | Saving the untouched form of a titled task sends an update. It leaves a task with a description as it was, and gives a task without one the description "". |
| TaskCard.ToggleChangesOnlyStatus | src/components/dashboard/task-card.tsx:115 | The toggle, merged into the task, changes only its status. |
| TaskList.Render | src/components/dashboard/task-list.tsx:23-68 | Loading wins over everything. Not loading with no tasks shows the empty state. Otherwise there is one card per task in order, and a card edits iff its id equals the editing id. |
| TaskList.AfterEvent | src/components/dashboard/task-list.tsx:62-63 | Edit makes that task the editing one. Cancel clears the editing id. Other events keep it. |
| TaskList.AtMostOneEditor | src/components/dashboard/task-list.tsx:61 | With distinct ids, at most one card shows its form. |
| TaskList.EditOpensCard | src/components/dashboard/task-list.tsx:61-62 | Clicking edit on a card opens exactly that card's form and displaces any other. |
| TaskList.SaveClosesEditor | src/components/dashboard/task-list.tsx:57-68 | A valid save closes the editor; an invalid one leaves it open. |
| Sessions.InitialSessions | src/components/dashboard/session-manager.tsx:18-40 | Ids "1", "2" and "3". Only the first is current. They were last active now, an hour ago and a day ago. |
| Sessions.Revoke | src/components/dashboard/session-manager.tsx:42-44 | Keeps exactly the sessions whose id differs. |
| Sessions.RevokePieces | src/components/dashboard/session-manager.tsx:42-44 | Revoking keeps session order and repeats: one session survives iff its id differs, and a concatenation is revoked from part by part. |
| Sessions.RevokeUnknownId | src/components/dashboard/session-manager.tsx:42-44 | Revoking an unknown id leaves the list unchanged. |
| Sessions.OverviewAddsUp | src/components/dashboard/session-manager.tsx:211-223 | "Active Now" plus "Other Sessions" equals the number of sessions. |
| Sessions.RevokeKeepsActive | src/components/dashboard/session-manager.tsx:157-167 | The Revoke button appears only on non-current sessions. With distinct ids, revoking through it never changes the number of current sessions. |
| Sessions.DeviceIcon | src/components/dashboard/session-manager.tsx:46-65 | Mobile iff "iPhone" or "Android" occurs (checked first). Desktop iff neither occurs and "Windows", "MacBook" or "Linux" does. Otherwise generic. Matching is case-sensitive. |
| Sessions.InitialIcons | src/components/dashboard/session-manager.tsx:18-65 | The three starting sessions show desktop, mobile and desktop icons. |
| Sessions.DevicesLabel | src/components/dashboard/session-manager.tsx:92 | The label is "device" iff there is exactly one session, and "devices" otherwise. |
| Browser.MessageOr | src/auth/login/index.tsx:42 | `result.message \|\| fallback` is the server's message when present and non-empty, and the fallback otherwise. |
| Auth.StoredToken | src/auth/login/index.tsx:46 | The token is stored as given; an absent one is stored as "undefined". |
| Auth.StoredUser | src/auth/login/index.tsx:47 | The user is stored as JSON; an absent one is stored as "undefined". |
| Auth.AfterReply | src/auth/login/index.tsx:39-53 | A thrown request gives the generic error. A non-ok reply gives the server's message or the fallback, and stores nothing. An ok reply stores token and user and goes to "/dashboard". Navigation happens iff the reply was ok. |
| Auth.OnlySuccessStores | src/auth/login/index.tsx:41-48 | Storage changes only on success, and no key other than token and user ever changes. |
| Login.Validate | src/auth/login/index.tsx:8-11 | Valid iff the email passes the address check and the password has at least 6 characters. Each field shows its own message. |
| Login.Submit | src/auth/login/index.tsx:28-54 | An invalid form sends nothing. A valid one posts exactly `{email, password}` to the login URL and ends with the "Login failed" fallback. |
| Login.RefusedLogin | src/auth/login/index.tsx:41-44 | A refused login leaves storage untouched and shows the server's message or "Login failed". |
| Register.UsernameIssues | src/auth/register/index.tsx:10-13 | A username is accepted iff it has 3 to 20 characters inclusive. Too short and too long each give their message. |
| Register.Validate | src/auth/register/index.tsx:8-21 | Valid iff username 3..20, email valid, password at least 8 characters, and password equals confirmation. A mismatch shows "Passwords don't match" on the confirmation field. Each other field shows its own failed check's message; the username shows the too-short or too-long message. |
| Register.Submit | src/auth/register/index.tsx:39-69 | The body has exactly username, email and password, never the confirmation. The outcome uses the "Registration failed" fallback. |
| Register.UsernameBounds | src/auth/register/index.tsx:10-13 | 3 and 20 characters pass; 2 and 21 fail with their messages. |
| Register.MismatchBlocks | src/auth/register/index.tsx:18-21 | Mismatched passwords block the submit and show the mismatch message, whatever else is wrong. |
| Profile.InitialPage | src/profile/index.tsx:36-43 | The page starts loading, with no user and no navigation. |
| Profile.Mount | src/profile/index.tsx:68-84 | Redirects to "/auth/login" without fetching iff the token or the stored user is missing or empty. Otherwise it fetches the profile endpoint joined to the configured API base, with the stored token as bearer. |
| Profile.AfterFetchProfile | src/profile/index.tsx:80-99 | An ok reply shows the returned user. A 401 removes token and user and goes to login. Other outcomes change nothing. Loading always ends. |
| Profile.UnauthorizedThenRedirect | src/profile/index.tsx:68-93 | After a 401 the next mount redirects to login. |
| Profile.ProfileReadWhereUpdated | src/profile/index.tsx:68-141 | Whenever a profile update is sent, the page's mount fetches the profile from the same URL with the same stored token. |
| Profile.ValidateProfile | src/profile/index.tsx:16-21 | Valid iff a present username has 3..20 characters, a present email passes the check, and one of the two is non-empty. When both are empty or absent, the issue "At least one field must be provided" is recorded at the form level, not on a field. |
| Profile.EmptyProfileFormRefused | src/profile/index.tsx:16-21 | The untouched page submits ("", "") because the form has no defaults (line 55). That form is refused with the form-level issue "At least one field must be provided", which the page never displays (it shows only the username and email errors, lines 271-287). The refusal is not silent, though: the username shows "Username must be at least 3 characters", and the email shows "Invalid email address" whenever "" fails the address check. A form with both fields absent would be refused silently, but the page's registered boxes never submit one. |
| Profile.ValidatePassword | src/profile/index.tsx:23-30 | Valid iff the current password is non-empty, the new and confirmation have at least 8 characters, and they match. The confirmation shows its length message first, then the mismatch. |
| Profile.PasswordRuleSimplified | src/profile/index.tsx:23-30 | The rule amounts to: a current password, a new one of at least 8 characters, and a matching confirmation. |
| Profile.UpdateProfile | src/profile/index.tsx:101-141 | Invalid forms send nothing. No token clears both profile messages, goes to login and changes nothing else. Otherwise the validated data is sent, and the outcome is as follows. A failure shows the server's message or "Failed to update profile". Success shows "Profile updated successfully!" and replaces the shown and the stored user. |
| Profile.ChangePassword | src/profile/index.tsx:143-184 | No token clears both password messages, goes to login and changes nothing else. Otherwise the body carries only current and new passwords. A failure shows the server's message or "Failed to change password". Success shows "Password changed successfully!". Neither touches storage. |
| CreateTaskModal.EnumIssues | src/components/dashboard/create-task-modal.tsx:10-11 | An optional enum field passes iff it is absent or a member. |
| CreateTaskModal.Validate | src/components/dashboard/create-task-modal.tsx:7-12 | Valid iff the title has 1..100 characters, a present description has at most 500, and present priority and recurrence are enum members. The title shows the matching message. |
| CreateTaskModal.Submit | src/components/dashboard/create-task-modal.tsx:32-40 | An invalid form calls nothing. A valid one calls `onCreate` once with the title, the description or "", and the priority and recurrence as chosen. |
| CreateTaskModal.TitleBoundaries | src/components/dashboard/create-task-modal.tsx:8 | 100 characters pass, 101 fail with "Title must be less than 100 characters", and an empty title is refused with "Title is required". |
| CreateTaskModal.UntouchedModal | src/components/dashboard/create-task-modal.tsx:59-104 | The untouched modal submits "" for title and description and the first options "low" and "none". It is refused with "Title is required". With only a title typed it creates a low-priority, non-recurring task with an empty description, so the dashboard's "medium" default is never reached from it. |
| CreateTaskModal.CreatedRequestWellFormed | src/components/dashboard/create-task-modal.tsx:32-40 | Whatever passes the modal reaches the server as a pending task whose priority and recurrence are enum members. |

## Left out

- Rendering, CSS classes, icons, animations and the security tips are left out. Only the
  decisions behind them are modelled.
- `fetch`, `localStorage` and `window.location` are not performed. Each handler takes
  the stored values and the settled reply as parameters. It returns the request it
  would make and the state it would leave.
  - The dashboard's four task requests record method, path, bearer token and body.
  - The profile fetch records its URL and bearer token.
  - The login, register, update-profile and change-password requests record URL and
    body. Their method is left out: POST for login and register, PUT for the two
    profile forms. So is the bearer token the two profile forms send.
  - The `Content-Type` header is left out everywhere.
- JSON encoding and decoding are left out. Stored users are kept as `JsonOf(user)`. A
  body that fails to parse counts as a thrown request.
- The `setTimeout` delays are left out: the 300 ms before a card's delete, and the 3 s
  after which the profile success messages clear.
- react-hook-form's reading of the controls is not derived. Each form is modelled with
  its values as the schema receives them. An untouched text box or textarea without a
  default gives "", and an untouched select gives its first option.
  `TaskCard.DefaultForm`, `CreateTaskModal.UntouchedForm` and `Profile.UntouchedForm`
  write out those untouched values by hand.
- TaskCard.SaveUnchanged: saving the untouched form leaves the task unchanged only when
  it has a description. A task without one gets the empty description.
- The email format check inside zod is a parameter `isEmail`. zod's full text for a
  value outside an enum is shortened to its head, "Invalid enum value".
- String lengths count characters, where zod counts UTF-16 code units. The two differ
  only for characters outside the Basic Multilingual Plane.
- Parser.ExtractPriority: lower-casing is modelled for ASCII letters and the Kelvin
  sign only. Only those can turn into the ASCII letters of a keyword; other characters
  are compared unchanged.
- Calendar.AddMonths: the contract states only that the time of day is kept. The
  day-of-month overflow is shown by the two examples, not by a general lemma.
- Calendar.AddDays: there are no time zones or daylight-saving changes. Instants are
  milliseconds on a fixed local clock, so a day is always 86,400,000 ms.
- Dates read from ISO strings (`new Date(t.dueDate)`) are already instants here.
- `toDateString` equality is the same day number. `toLocaleString` and
  `toLocaleDateString` formatting is left out.
- Analytics.CompletionRate uses exact round-half-up. Floating-point division followed
  by `Math.round` is not modelled.
- `new Date()` is the parameter `now` wherever it is read.
- The snooze panel's open-menu id is only ever cleared. The component never opens it,
  so it is not modelled as state. The panel renders neither the snooze options nor a
  control that calls the handler. `Snooze.HandleSnooze`, `Snooze.OptionInstant` and
  the presets are modelled as written, but no rendered control reaches them.
- The profile page never displays the form-level "At least one field must be provided"
  issue. The model records the issue but has no display for it.
- The dashboard's view switcher and loading screen are left out. So are the navigation
  bar, the home page and the task header, which only present and redirect.
- The handlers read `tasks` from the render that created them. Overlapping requests
  that finish out of order are not modelled.
- A stored user that is not valid JSON is not modelled. The dashboard's `JSON.parse`
  would throw on it.
- Several test files assert things no source file does, and are not modelled:
  - `handleApiResponse` and the session endpoints;
  - a session manager that fetches its sessions;
  - analytics texts that the component does not render.

=== FILE: analytics.dfy ===
/** The analytics panel's figures, computed from the task list and the clock. */
module Analytics {
  import opened Wrappers
  import opened Seqs
  import opened Calendar
  import opened TaskModel

  datatype Metrics = Metrics(
    total: nat,
    completed: nat,
    inProgress: nat,
    pending: nat,
    completionRate: nat,
    highPriority: nat,
    overdue: nat,
    createdToday: nat)

  /** A task is overdue when it has a due date strictly before `now` and is not completed. */
  predicate IsOverdue(t: Task, now: int) {
    t.dueDate.Some? && t.status != Completed && t.dueDate.value < now
  }

  /** Created on the calendar day of `now` (the `toDateString()` comparison). */
  predicate CreatedToday(t: Task, now: int) {
    DayOf(t.createdAt) == DayOf(now)
  }

  /** `Math.round(completed / total * 100)`, or 0 with no tasks, in exact arithmetic:
      the percentage rounded to the nearest integer, halves rounded up. */
  function CompletionRate(completed: nat, total: nat): (r: nat)
    requires completed <= total
    ensures total == 0 ==> r == 0
    ensures total > 0 ==> 2 * total * r <= 200 * completed + total < 2 * total * (r + 1)
    ensures r <= 100
    ensures total > 0 && completed == total ==> r == 100
  {
    if total > 0 then
      var r := (200 * completed + total) / (2 * total);
      DivBounds(200 * completed + total, 2 * total);
      assert 2 * total * r <= 200 * completed + total;
      assert r <= 100 by {
        if r > 100 {
          assert 2 * total * r >= 2 * total * 101 by {
            assert r >= 101;
            MulMonotone(2 * total, 101, r);
          }
        }
      }
      assert completed == total ==> r == 100 by {
        if completed == total {
          assert 2 * total * r <= 201 * total < 2 * total * (r + 1);
          assert r >= 100 by {
            if r < 100 {
              MulMonotone(2 * total, r + 1, 100);
            }
          }
        }
      }
      r
    else 0
  }

  /** The quotient of Euclidean division brackets the dividend. */
  lemma DivBounds(a: nat, b: nat)
    requires b > 0
    ensures b * (a / b) <= a < b * (a / b + 1)
  {
  }

  lemma MulMonotone(k: nat, x: nat, y: nat)
    requires x <= y
    ensures k * x <= k * y
  {
  }

  /** The `metrics` memo of the analytics panel. */
  function ComputeMetrics(tasks: seq<Task>, now: int): (m: Metrics)
    ensures m.total == |tasks|
    ensures m.completed == Count(tasks, (t: Task) => t.status == Completed)
    ensures m.inProgress == Count(tasks, (t: Task) => t.status == InProgress)
    ensures m.pending == Count(tasks, (t: Task) => t.status == Pending)
    ensures m.highPriority == Count(tasks, (t: Task) => t.priority == Some(High))
    ensures m.overdue == Count(tasks, (t: Task) => IsOverdue(t, now))
    ensures m.createdToday == Count(tasks, (t: Task) => CreatedToday(t, now))
    ensures m.completed + m.inProgress + m.pending == m.total
    ensures m.completed <= m.total && m.inProgress <= m.total && m.pending <= m.total
    ensures m.highPriority <= m.total && m.overdue <= m.total && m.createdToday <= m.total
    ensures m.completionRate <= 100
    ensures m.total == 0 ==> m.completionRate == 0
    ensures m.total > 0 ==>
      2 * m.total * m.completionRate <= 200 * m.completed + m.total < 2 * m.total * (m.completionRate + 1)
  {
    var completed := Count(tasks, (t: Task) => t.status == Completed);
    var inProgress := Count(tasks, (t: Task) => t.status == InProgress);
    var pending := Count(tasks, (t: Task) => t.status == Pending);
    CountPartition3(tasks, (t: Task) => t.status == Completed, (t: Task) => t.status == InProgress,
      (t: Task) => t.status == Pending);
    Metrics(
      |tasks|,
      completed,
      inProgress,
      pending,
      CompletionRate(completed, |tasks|),
      Count(tasks, (t: Task) => t.priority == Some(High)),
      Count(tasks, (t: Task) => IsOverdue(t, now)),
      Count(tasks, (t: Task) => CreatedToday(t, now)))
  }

  /** Completed tasks are never overdue: a list of completed tasks has no overdue ones. */
  lemma CompletedNeverOverdue(tasks: seq<Task>, now: int)
    requires forall i :: 0 <= i < |tasks| ==> tasks[i].status == Completed
    ensures ComputeMetrics(tasks, now).overdue == 0
    ensures |tasks| > 0 ==> ComputeMetrics(tasks, now).completionRate == 100
  {
  }

  /** The worked cases: two of four tasks completed is 50%, one of three is 33%,
      two of three is 67%, one of eight (12.5) rounds up to 13. */
  lemma CompletionRateExamples()
    ensures CompletionRate(2, 4) == 50
    ensures CompletionRate(1, 3) == 33
    ensures CompletionRate(2, 3) == 67
    ensures CompletionRate(1, 8) == 13
    ensures CompletionRate(0, 0) == 0
  {
  }
}

=== FILE: api.dfy ===
/** The REST endpoint table and the URL joiner. */
module Api {
  import opened Wrappers
  import opened Text

  const DefaultApiUrl := "http://localhost:4000"

  /** `import.meta.env.VITE_API_URL || 'http://localhost:4000'`: an unset or empty
      setting falls back to the local server. */
  function ApiUrl(env: Option<string>): (r: string)
    ensures env.Some? && env.value != "" ==> r == env.value
    ensures env.None? || env.value == "" ==> r == DefaultApiUrl
  {
    match env
    case Some(u) => if u != "" then u else DefaultApiUrl
    case None => DefaultApiUrl
  }

  /** The endpoint without one leading slash, when it has one. */
  function CleanEndpoint(endpoint: string): (r: string)
    ensures StartsWith(endpoint, "/") ==> "/" + r == endpoint
    ensures !StartsWith(endpoint, "/") ==> r == endpoint
  {
    if StartsWith(endpoint, "/") then endpoint[1..] else endpoint
  }

  /** The base without one trailing slash, when it has one. */
  function CleanBase(base: string): (r: string)
    ensures EndsWith(base, "/") ==> r + "/" == base
    ensures !EndsWith(base, "/") ==> r == base
  {
    if EndsWith(base, "/") then base[..|base| - 1] else base
  }

  /** `getApiUrl(endpoint)` against the configured `base`: the cleaned base, one
      slash, then the cleaned endpoint. */
  function GetApiUrl(base: string, endpoint: string): (r: string)
    ensures |r| == |CleanBase(base)| + 1 + |CleanEndpoint(endpoint)|
    ensures StartsWith(r, CleanBase(base) + "/")
    ensures EndsWith(r, CleanEndpoint(endpoint))
  {
    CleanBase(base) + "/" + CleanEndpoint(endpoint)
  }

  /** An endpoint not starting with a slash gives the same URL with or without one
      prepended. */
  lemma LeadingSlashOptional(base: string, endpoint: string)
    requires !StartsWith(endpoint, "/")
    ensures GetApiUrl(base, "/" + endpoint) == GetApiUrl(base, endpoint)
  {
    assert ("/" + endpoint)[1..] == endpoint;
  }

  /** Only one slash is stripped from each side: a doubled slash survives as one. */
  lemma OneSlashStripped(base: string, endpoint: string)
    ensures GetApiUrl(base + "//", "//" + endpoint) == base + "/" + "/" + "/" + endpoint
  {
    assert ("//" + endpoint)[1..] == "/" + endpoint;
    assert (base + "//")[..|base| + 1] == base + "/";
  }

  /** When the base ends in at most one slash and the endpoint starts with at most one,
      the slash at the join has no slash on either side. */
  lemma NoDoubleSlashAtJoin(base: string, endpoint: string)
    requires !EndsWith(base, "//")
    requires !StartsWith(endpoint, "//")
    ensures var r := GetApiUrl(base, endpoint);
      var k := |CleanBase(base)|;
      && r[k] == '/'
      && (k > 0 ==> r[k - 1] != '/')
      && (k + 1 < |r| ==> r[k + 1] != '/')
  {
    var r := GetApiUrl(base, endpoint);
    var b := CleanBase(base);
    var e := CleanEndpoint(endpoint);
    assert r == b + "/" + e;
    if |b| > 0 && EndsWith(base, "/") {
      assert base == b + "/";
      assert b[|b| - 1] == base[|base| - 2];
    }
    if |e| > 0 && StartsWith(endpoint, "/") {
      assert endpoint == "/" + e;
      assert e[0] == endpoint[1];
    }
  }

  /** With no configured URL, the login endpoint resolves on the local server. */
  lemma DefaultLoginUrl()
    ensures GetApiUrl(ApiUrl(None), AuthLogin) == "http://localhost:4000/api/auth/login"
    ensures GetApiUrl(ApiUrl(Some("")), AuthLogin) == "http://localhost:4000/api/auth/login"
  {
  }

  const AuthRegister := "/api/auth/register"
  const AuthLogin := "/api/auth/login"
  const AuthProfile := "/api/auth/profile"
  const AuthUpdateProfile := "/api/auth/profile"
  const AuthChangePassword := "/api/auth/password"
  const TasksList := "/api/tasks"
  const TasksCreate := "/api/tasks"

  /** `API_ENDPOINTS.TASKS.UPDATE(id)`. */
  function TasksUpdate(id: string): string {
    "/api/tasks/" + id
  }

  /** `API_ENDPOINTS.TASKS.DELETE(id)`. */
  function TasksDelete(id: string): string {
    "/api/tasks/" + id
  }

  /** Updating and deleting a task address the same resource, a child of the task
      collection, which listing and creating share; the profile is read and updated
      at one address. */
  lemma TaskEndpointsAgree(id: string)
    ensures TasksUpdate(id) == TasksDelete(id) == TasksList + "/" + id
    ensures TasksList == TasksCreate
    ensures AuthProfile == AuthUpdateProfile
    ensures TasksUpdate("123") == "/api/tasks/123"
  {
  }
}

=== FILE: auth.dfy ===
/** What the login and register pages share: the reply body of an authentication
    request and the page state its outcome leaves behind. */
module Auth {
  import opened Wrappers
  import opened Browser
  import opened Forms

  /** The parsed reply of `/api/auth/login` and `/api/auth/register`. */
  datatype AuthBody = AuthBody(message: Option<string>, token: Option<string>, user: Option<User>)

  /** The error line under the form, local storage, and where the page navigated to. */
  datatype PageState = PageState(error: string, storage: Storage, location: Option<string>)

  /** `localStorage.setItem("token", result.token)`: an absent token is stored as the
      text "undefined". */
  function StoredToken(token: Option<string>): (v: Stored)
    ensures token.Some? ==> v == Raw(token.value)
    ensures token.None? ==> v == Raw("undefined")
  {
    match token
    case Some(t) => Raw(t)
    case None => Raw("undefined")
  }

  /** `localStorage.setItem("user", JSON.stringify(result.user))`. */
  function StoredUser(user: Option<User>): (v: Stored)
    ensures user.Some? ==> v == JsonOf(user.value)
    ensures user.None? ==> v == Raw("undefined")
  {
    match user
    case Some(u) => JsonOf(u)
    case None => Raw("undefined")
  }

  const DashboardPath := "/dashboard"

  /** The end of `onSubmit` once the request settles: a rejected request shows the
      generic error, a non-ok reply shows the server's message or `fallback` and stores
      nothing, an ok reply stores the token and the user and goes to the dashboard. */
  function AfterReply(storage: Storage, reply: Reply<AuthBody>, fallback: string): (s: PageState)
    ensures reply.Threw? ==> s == PageState(GenericError, storage, None)
    ensures reply.Replied? && !reply.ok ==> s == PageState(MessageOr(reply.body.message, fallback), storage, None)
    ensures reply.Replied? && reply.ok ==> s.error == "" && s.location == Some(DashboardPath)
    ensures reply.Replied? && reply.ok ==>
      s.storage == storage[TokenKey := StoredToken(reply.body.token)][UserKey := StoredUser(reply.body.user)]
    ensures s.location.Some? <==> reply.Replied? && reply.ok
  {
    match reply
    case Threw => PageState(GenericError, storage, None)
    case Replied(ok, _, body) =>
      if !ok then PageState(MessageOr(body.message, fallback), storage, None)
      else PageState("", storage[TokenKey := StoredToken(body.token)][UserKey := StoredUser(body.user)], Some(DashboardPath))
  }

  /** Only a successful sign-in touches storage, and then only the token and user keys. */
  lemma OnlySuccessStores(storage: Storage, reply: Reply<AuthBody>, fallback: string, key: string)
    requires key != TokenKey && key != UserKey
    ensures var s := AfterReply(storage, reply, fallback);
      (s.storage != storage ==> reply.Replied? && reply.ok)
      && (key in storage ==> key in s.storage && s.storage[key] == storage[key])
      && (key !in storage ==> key !in s.storage)
  {
  }

  /** `handleSubmit(onSubmit)`: a form with issues is not sent; a valid one posts
      `body` to `url` and ends in `state`. */
  datatype Submission<B> = Rejected(issues: seq<Issue>) | Sent(url: string, body: B, state: PageState)
}

=== FILE: browser.dfy ===
/** What the pages see of the browser and the backend: local storage, and the outcome
    of a `fetch` call. */
module Browser {
  import opened Wrappers

  /** The signed-in user as the backend returns it. */
  datatype User = User(id: string, username: string, email: string)

  /** A local-storage value: a plain string, or the JSON text of a user. */
  datatype Stored = Raw(text: string) | JsonOf(user: User)

  type Storage = map<string, Stored>

  const TokenKey := "token"
  const UserKey := "user"

  /** `localStorage.getItem(key)` is truthy: set, and not the empty string. */
  predicate Truthy(storage: Storage, key: string) {
    key in storage && storage[key] != Raw("")
  }

  /** The settled outcome of `fetch` followed by `response.json()`: the promise
      rejected, or a response with its status and parsed body. */
  datatype Reply<B> = Threw | Replied(ok: bool, status: int, body: B)

  /** `result.message || fallback`. */
  function MessageOr(message: Option<string>, fallback: string): (r: string)
    ensures message.Some? && message.value != "" ==> r == message.value
    ensures message.None? || message.value == "" ==> r == fallback
  {
    if message.Some? && message.value != "" then message.value else fallback
  }

  /** The text every form shows when its request throws. */
  const GenericError := "An error occurred. Please try again."
}

=== FILE: calendar.dfy ===
/** Instants as integers: milliseconds since 1970-01-01T00:00 on the local wall clock
    (the value a JavaScript `Date` holds, with the time zone taken as fixed). The
    `Date` setters the components call are written out as arithmetic on them. */
module Calendar {

  const MsPerSecond := 1000
  const MsPerMinute := 60_000
  const MsPerHour := 3_600_000
  const MsPerDay := 86_400_000

  /** Days since 1970-01-01 of the calendar day holding `t`. */
  function DayOf(t: int): int {
    t / MsPerDay
  }

  /** Milliseconds since local midnight. */
  function TimeOfDay(t: int): (r: int)
    ensures 0 <= r < MsPerDay
  {
    t % MsPerDay
  }

  /** An instant is its day and its time of day, and the two are recovered from it. */
  lemma SplitInstant(day: int, ms: int)
    requires 0 <= ms < MsPerDay
    ensures DayOf(day * MsPerDay + ms) == day
    ensures TimeOfDay(day * MsPerDay + ms) == ms
  {
  }

  /** `Date.prototype.getDay()`: 0 is Sunday, 6 is Saturday. 1970-01-01 was a Thursday. */
  function WeekDay(t: int): (r: int)
    ensures 0 <= r < 7
  {
    (DayOf(t) + 4) % 7
  }

  /** `d.setDate(d.getDate() + n)`: the same time of day, `n` calendar days later. */
  function AddDays(t: int, n: int): (r: int)
    ensures DayOf(r) == DayOf(t) + n
    ensures TimeOfDay(r) == TimeOfDay(t)
  {
    SplitInstant(DayOf(t) + n, TimeOfDay(t));
    t + n * MsPerDay
  }

  /** Moving `n` days ahead moves the weekday `n` places round the week. */
  lemma WeekDayAfter(t: int, n: int)
    ensures WeekDay(AddDays(t, n)) == (WeekDay(t) + n) % 7
  {
    var d := DayOf(t);
    assert (d + n + 4) % 7 == ((d + 4) % 7 + n) % 7;
  }

  /** `d.setHours(h, m, s, ms)` for in-range arguments: the same calendar day at the
      given wall-clock time. */
  function SetHours(t: int, h: int, m: int, s: int, ms: int): (r: int)
    requires 0 <= h < 24 && 0 <= m < 60 && 0 <= s < 60 && 0 <= ms < 1000
    ensures DayOf(r) == DayOf(t)
    ensures TimeOfDay(r) == h * MsPerHour + m * MsPerMinute + s * MsPerSecond + ms
  {
    SplitInstant(DayOf(t), h * MsPerHour + m * MsPerMinute + s * MsPerSecond + ms);
    DayOf(t) * MsPerDay + h * MsPerHour + m * MsPerMinute + s * MsPerSecond + ms
  }

  /** A proleptic Gregorian date; `month` runs 1..12. */
  datatype CivilDate = CivilDate(year: int, month: int, day: int)

  /** Day number of year/month/day. Linear in `day`, so a day past the end of the
      month rolls into the next month, as `Date` does. */
  function DaysFromCivil(year: int, month: int, day: int): int {
    var y := if month <= 2 then year - 1 else year;
    var era := y / 400;
    var yoe := y - era * 400;
    var doy := (153 * (if month > 2 then month - 3 else month + 9) + 2) / 5 + day - 1;
    var doe := yoe * 365 + yoe / 4 - yoe / 100 + doy;
    era * 146097 + doe - 719468
  }

  /** The calendar date of a day number. */
  function CivilFromDays(days: int): CivilDate {
    var z := days + 719468;
    var era := z / 146097;
    var doe := z - era * 146097;
    var yoe := (doe - doe / 1460 + doe / 36524 - doe / 146096) / 365;
    var doy := doe - (365 * yoe + yoe / 4 - yoe / 100);
    var mp := (5 * doy + 2) / 153;
    var d := doy - (153 * mp + 2) / 5 + 1;
    var m := if mp < 10 then mp + 3 else mp - 9;
    CivilDate(if m <= 2 then yoe + era * 400 + 1 else yoe + era * 400, m, d)
  }

  /** `d.setMonth(d.getMonth() + n)`: the same day of the month and time of day `n`
      months later, the day overflowing into the following month when that month is
      shorter (31 January plus one month is 2 or 3 March). */
  function AddMonths(t: int, n: int): (r: int)
    ensures TimeOfDay(r) == TimeOfDay(t)
  {
    var c := CivilFromDays(DayOf(t));
    var m0 := c.month - 1 + n;
    var day := DaysFromCivil(c.year + m0 / 12, m0 % 12 + 1, c.day);
    SplitInstant(day, TimeOfDay(t));
    day * MsPerDay + TimeOfDay(t)
  }

  /** 31 January 2024 (day 19753, a Wednesday). */
  lemma CivilExample()
    ensures CivilFromDays(19753) == CivilDate(2024, 1, 31)
    ensures DaysFromCivil(2024, 3, 2) == 19784
  {
    assert 19753 + 719468 == 739221;
    assert 739221 / 146097 == 5;
  }

  lemma WeekDayExample()
    ensures WeekDay(19753 * MsPerDay) == 3
  {
  }

  /** 31 January 2024 plus one month overflows to 2 March (2024 is a leap year). */
  lemma AddMonthsOverflowExample()
    ensures AddMonths(19753 * MsPerDay, 1) == 19784 * MsPerDay
  {
    CivilExample();
  }

  /** 15 December 2023 plus one month is 15 January 2024, at the same time of day. */
  lemma AddMonthsYearEndExample()
    ensures AddMonths(19706 * MsPerDay + 5, 1) == 19737 * MsPerDay + 5
  {
    var t := 19706 * MsPerDay + 5;
    SplitInstant(19706, 5);
    MidDecember();
    MidJanuary();
    var m0 := 12 - 1 + 1;
    assert m0 / 12 == 1 && m0 % 12 + 1 == 1;
  }

  lemma MidDecember()
    ensures CivilFromDays(19706) == CivilDate(2023, 12, 15)
  {
    assert 19706 + 719468 == 739174;
    assert 739174 / 146097 == 5;
  }

  lemma MidJanuary()
    ensures DaysFromCivil(2024, 1, 15) == 19737
  {
  }
}

=== FILE: create_task_modal.dfy ===
/** The create-task modal: its schema and the arguments a valid submit hands to the
    dashboard. */
module CreateTaskModal {
  import opened Wrappers
  import opened TaskModel
  import opened Forms
  import Dashboard

  /** The form's values as the schema receives them. */
  datatype ModalForm = ModalForm(
    title: string,
    description: Option<string>,
    priority: Option<string>,
    recurrence: Option<string>)

  const TitleRequired := "Title is required"
  const TitleTooLong := "Title must be less than 100 characters"
  const DescriptionTooLong := "Description must be less than 500 characters"
  /** The head of zod's message for a value outside an enum. */
  const InvalidEnum := "Invalid enum value"

  /** A present enum field must name one of its members. */
  function EnumIssues(path: string, v: Option<string>, member: string -> bool): (issues: seq<Issue>)
    ensures issues == [] <==> v.None? || member(v.value)
    ensures issues != [] ==> issues == [Issue(path, InvalidEnum)]
  {
    match v
    case None => []
    case Some(s) => Check(path, member(s), InvalidEnum)
  }

  /** `createTaskSchema`: a title of 1 to 100 characters, a description of at most
      500, and priority and recurrence, when present, among their enum values. */
  function Validate(f: ModalForm): (issues: seq<Issue>)
    ensures issues == [] <==>
      1 <= |f.title| <= 100
      && (f.description.Some? ==> |f.description.value| <= 500)
      && (f.priority.Some? ==> ParsePriority(f.priority.value).Some?)
      && (f.recurrence.Some? ==> ParseRecurrence(f.recurrence.value).Some?)
    ensures FieldError(issues, "title") ==
      if |f.title| < 1 then Some(TitleRequired)
      else if |f.title| > 100 then Some(TitleTooLong)
      else None
  {
    var t := AtLeast("title", f.title, 1, TitleRequired) + AtMost("title", f.title, 100, TitleTooLong);
    var d := match f.description
      case None => []
      case Some(s) => AtMost("description", s, 500, DescriptionTooLong);
    var p := EnumIssues("priority", f.priority, (s: string) => ParsePriority(s).Some?);
    var r := EnumIssues("recurrence", f.recurrence, (s: string) => ParseRecurrence(s).Some?);
    FieldErrorWithin([], t, d + p + r, "title");
    assert [] + t + (d + p + r) == t + d + p + r;
    t + d + p + r
  }

  /** `handleSubmit(onSubmit)`: an invalid form calls nothing; a valid one calls
      `onCreate` once, with "" for a missing or empty description. */
  datatype ModalOutcome = Refused(issues: seq<Issue>) | Created(args: Dashboard.CreateArgs)

  function Submit(f: ModalForm): (o: ModalOutcome)
    ensures o.Refused? <==> Validate(f) != []
    ensures o.Refused? ==> o.issues == Validate(f)
    ensures o.Created? ==> o.args.title == f.title
    ensures o.Created? ==> o.args.description == (if f.description.Some? then f.description.value else "")
    ensures o.Created? ==> o.args.priority == f.priority && o.args.recurrence == f.recurrence
  {
    var issues := Validate(f);
    if issues != [] then Refused(issues)
    else
      var description := if f.description.Some? && f.description.value != "" then f.description.value else "";
      Created(Dashboard.CreateArgs(f.title, description, f.priority, f.recurrence))
  }

  /** The form an untouched modal submits: the text boxes are empty, and each select
      shows its first option, "low" and "none", having no empty one. */
  const UntouchedForm := ModalForm("", Some(""), Some("low"), Some("none"))

  /** The untouched modal is refused with "Title is required". Typing only a title
      creates a low-priority, non-recurring task with an empty description, so the
      dashboard's "medium" default is never reached from the modal. */
  lemma UntouchedModal(title: string)
    ensures Submit(UntouchedForm).Refused?
    ensures FieldError(Validate(UntouchedForm), "title") == Some(TitleRequired)
    ensures 1 <= |title| <= 100 ==>
      Submit(UntouchedForm.(title := title)) == Created(Dashboard.CreateArgs(title, "", Some("low"), Some("none")))
    ensures 1 <= |title| <= 100 ==>
      Dashboard.CreateRequest(title, "", Some("low"), Some("none")).priority == "low"
  {
    assert ParsePriority("low") == Some(Low);
    assert ParseRecurrence("none") == Some(NoRecurrence);
  }

  /** 100 characters is the longest title accepted, and an empty one is refused with
      "Title is required". */
  lemma TitleBoundaries(f: ModalForm)
    ensures |f.title| == 100 ==> FieldError(Validate(f), "title").None?
    ensures |f.title| == 101 ==> FieldError(Validate(f), "title") == Some(TitleTooLong)
    ensures f.title == "" ==> Submit(f).Refused? && FieldError(Validate(f), "title") == Some(TitleRequired)
  {
  }

  /** Whatever passes the modal reaches the server as a pending task whose priority
      and recurrence are members of their enums. */
  lemma CreatedRequestWellFormed(f: ModalForm)
    requires Submit(f).Created?
    ensures var a := Submit(f).args;
      var b := Dashboard.CreateRequest(a.title, a.description, a.priority, a.recurrence);
      && b.status == Pending
      && ParsePriority(b.priority).Some?
      && ParseRecurrence(b.recurrence).Some?
  {
    var a := Submit(f).args;
    if a.priority.Some? && a.priority.value != "" {
      assert ParsePriority(a.priority.value).Some?;
    } else {
      assert ParsePriority("medium") == Some(Medium);
    }
    if a.recurrence.Some? && a.recurrence.value != "" {
      assert ParseRecurrence(a.recurrence.value).Some?;
    } else {
      assert ParseRecurrence("none") == Some(NoRecurrence);
    }
  }
}

=== FILE: dashboard.dfy ===
/** The dashboard page's task list: the effects of creating, updating and deleting a
    task, the status filter and the header counts. */
module Dashboard {
  import opened Wrappers
  import opened Seqs
  import opened TaskModel
  import opened Browser
  import Api
  import Parser

  datatype Method = HttpGet | HttpPost | HttpPut | HttpDelete

  /** A request to the task API: its method, its path, the bearer token sent in the
      `Authorization` header, and the JSON body, if any. */
  datatype TaskRequest<B> = TaskRequest(verb: Method, path: string, bearer: Stored, body: Option<B>)

  /** What the dashboard's mount effect does: go to the login page, or show the stored
      user and fetch the tasks. */
  datatype MountAction = RedirectToLogin | LoadTasks(user: Stored, fetch: TaskRequest<()>)

  /** The mount guard: without a truthy token and a truthy user the page goes to the
      login page; otherwise it shows the stored user and GETs the task collection with
      the stored token. */
  function Mount(storage: Storage): (a: MountAction)
    ensures a == RedirectToLogin <==> !Truthy(storage, TokenKey) || !Truthy(storage, UserKey)
    ensures a.LoadTasks? ==>
      a.user == storage[UserKey] && a.fetch == TaskRequest(HttpGet, Api.TasksList, storage[TokenKey], None)
  {
    if !Truthy(storage, TokenKey) || !Truthy(storage, UserKey) then RedirectToLogin
    else LoadTasks(storage[UserKey], TaskRequest(HttpGet, "/api/tasks", storage[TokenKey], None))
  }

  /** `fetchTasks` once the request settles: an ok reply replaces the list by the
      reply's `tasks` (the empty list when it has none); anything else keeps the list.
      Loading ends either way. */
  function AfterFetchTasks(tasks: seq<Task>, reply: Reply<Option<seq<Task>>>): (r: (seq<Task>, bool))
    ensures !r.1
    ensures reply.Replied? && reply.ok ==> r.0 == reply.body.GetOr([])
    ensures !(reply.Replied? && reply.ok) ==> r.0 == tasks
  {
    match reply
    case Replied(ok, _, body) =>
      if ok then (match body case Some(ts) => ts case None => [], false) else (tasks, false)
    case Threw => (tasks, false)
  }

  /** The JSON body of the create request. */
  datatype CreateBody = CreateBody(
    title: string,
    description: string,
    status: Status,
    priority: string,
    recurrence: string)

  /** The body `handleCreateTask` posts: always pending, and a missing or empty
      priority or recurrence replaced by "medium" and "none". */
  function CreateRequest(title: string, description: string, priority: Option<string>, recurrence: Option<string>)
    : (b: CreateBody)
    ensures b.title == title && b.description == description
    ensures b.status == Pending
    ensures priority.Some? && priority.value != "" ==> b.priority == priority.value
    ensures priority.None? || priority.value == "" ==> b.priority == "medium"
    ensures recurrence.Some? && recurrence.value != "" ==> b.recurrence == recurrence.value
    ensures recurrence.None? || recurrence.value == "" ==> b.recurrence == "none"
  {
    CreateBody(title, description, Pending,
      if priority.Some? && priority.value != "" then priority.value else "medium",
      if recurrence.Some? && recurrence.value != "" then recurrence.value else "none")
  }

  /** What `handleCreateTask` leaves behind: the new list, whether the modal closes,
      and the request it sent, if any. */
  datatype CreateEffect = CreateEffect(tasks: seq<Task>, closeModal: bool, request: Option<TaskRequest<CreateBody>>)

  /** `handleCreateTask`: with no token nothing happens; otherwise the body is POSTed to
      the task collection with the stored token, and only an ok reply prepends the
      returned task and closes the modal. */
  function HandleCreateTask(
    tasks: seq<Task>, storage: Storage,
    title: string, description: string, priority: Option<string>, recurrence: Option<string>,
    reply: Reply<Task>): (r: CreateEffect)
    ensures !Truthy(storage, TokenKey) ==> r == CreateEffect(tasks, false, None)
    ensures Truthy(storage, TokenKey) ==> r.request == Some(TaskRequest(HttpPost, Api.TasksCreate, storage[TokenKey],
      Some(CreateRequest(title, description, priority, recurrence))))
    ensures reply.Replied? && reply.ok && Truthy(storage, TokenKey) ==>
      r.tasks == [reply.body] + tasks && r.closeModal
    ensures !(reply.Replied? && reply.ok) ==> r.tasks == tasks && !r.closeModal
  {
    if !Truthy(storage, TokenKey) then CreateEffect(tasks, false, None)
    else
      var request := Some(TaskRequest(HttpPost, "/api/tasks", storage[TokenKey],
        Some(CreateRequest(title, description, priority, recurrence))));
      match reply
      case Replied(ok, _, created) =>
        if ok then CreateEffect([created] + tasks, true, request) else CreateEffect(tasks, false, request)
      case Threw => CreateEffect(tasks, false, request)
  }

  /** `tasks.map((t) => (t.id === id ? { ...t, ...updates } : t))`. */
  function UpdateTasks(tasks: seq<Task>, id: string, updates: TaskPatch): (r: seq<Task>)
    ensures |r| == |tasks|
    ensures forall i :: 0 <= i < |tasks| && tasks[i].id == id ==> r[i] == Merge(tasks[i], updates)
    ensures forall i :: 0 <= i < |tasks| && tasks[i].id != id ==> r[i] == tasks[i]
  {
    seq(|tasks|, i requires 0 <= i < |tasks| => if tasks[i].id == id then Merge(tasks[i], updates) else tasks[i])
  }

  /** An update keeps every task's id (when it does not set the id), and an update for
      an id no task has, or with no keys, changes nothing. */
  lemma UpdateLaws(tasks: seq<Task>, id: string, updates: TaskPatch)
    ensures updates.id.Keep? ==> forall i :: 0 <= i < |tasks| ==> UpdateTasks(tasks, id, updates)[i].id == tasks[i].id
    ensures (forall i :: 0 <= i < |tasks| ==> tasks[i].id != id) ==> UpdateTasks(tasks, id, updates) == tasks
    ensures UpdateTasks(tasks, id, EmptyPatch) == tasks
  {
    var r := UpdateTasks(tasks, id, EmptyPatch);
    forall i | 0 <= i < |tasks| ensures r[i] == tasks[i] {
      MergeLaws(tasks[i], EmptyPatch);
    }
  }

  /** What a list handler leaves behind: the list, and the request it sent, if any. */
  datatype ListEffect = ListEffect(tasks: seq<Task>, request: Option<TaskRequest<TaskPatch>>)

  /** `handleUpdateTask(id, updates)`: with a token, a PUT to the task's address whose
      body is the patch; only an ok reply merges that same patch into the list. */
  function HandleUpdateTask(tasks: seq<Task>, storage: Storage, id: string, updates: TaskPatch, reply: Reply<()>)
    : (r: ListEffect)
    ensures !Truthy(storage, TokenKey) ==> r == ListEffect(tasks, None)
    ensures Truthy(storage, TokenKey) ==>
      r.request == Some(TaskRequest(HttpPut, Api.TasksUpdate(id), storage[TokenKey], Some(updates)))
    ensures Truthy(storage, TokenKey) && reply.Replied? && reply.ok ==>
      r.tasks == UpdateTasks(tasks, id, r.request.value.body.value)
    ensures !(reply.Replied? && reply.ok) ==> r.tasks == tasks
  {
    if !Truthy(storage, TokenKey) then ListEffect(tasks, None)
    else
      var request := TaskRequest(HttpPut, Api.TasksUpdate(id), storage[TokenKey], Some(updates));
      if reply.Replied? && reply.ok then ListEffect(UpdateTasks(tasks, id, updates), Some(request))
      else ListEffect(tasks, Some(request))
  }

  /** `tasks.filter((t) => t.id !== id)`. */
  function DeleteTasks(tasks: seq<Task>, id: string): (r: seq<Task>)
    ensures forall t :: t in r <==> t in tasks && t.id != id
  {
    Filter(tasks, (t: Task) => t.id != id)
  }

  /** Deleting an id no task has leaves the list as it was. */
  lemma DeleteUnknownId(tasks: seq<Task>, id: string)
    requires forall i :: 0 <= i < |tasks| ==> tasks[i].id != id
    ensures DeleteTasks(tasks, id) == tasks
  {
    FilterKeepsAll(tasks, (t: Task) => t.id != id);
  }

  /** Deleting keeps the surviving tasks in order: deleting from a list taken apart is
      deleting from each part. */
  lemma DeleteKeepsOrder(a: seq<Task>, b: seq<Task>, id: string)
    ensures DeleteTasks(a + b, id) == DeleteTasks(a, id) + DeleteTasks(b, id)
  {
    FilterConcat(a, b, (t: Task) => t.id != id);
  }

  /** `handleDeleteTask(id)`: with a token, a DELETE to the task's address; only an ok
      reply removes the task. */
  function HandleDeleteTask(tasks: seq<Task>, storage: Storage, id: string, reply: Reply<()>): (r: ListEffect)
    ensures !Truthy(storage, TokenKey) ==> r == ListEffect(tasks, None)
    ensures Truthy(storage, TokenKey) ==>
      r.request == Some(TaskRequest(HttpDelete, Api.TasksDelete(id), storage[TokenKey], None))
    ensures Truthy(storage, TokenKey) && reply.Replied? && reply.ok ==> r.tasks == DeleteTasks(tasks, id)
    ensures !(reply.Replied? && reply.ok) ==> r.tasks == tasks
  {
    if !Truthy(storage, TokenKey) then ListEffect(tasks, None)
    else
      var request := TaskRequest(HttpDelete, Api.TasksDelete(id), storage[TokenKey], None);
      if reply.Replied? && reply.ok then ListEffect(DeleteTasks(tasks, id), Some(request))
      else ListEffect(tasks, Some(request))
  }

  /** An update and a delete of the same task go to the same address, and only the
      method and the body tell them apart: the update carries the patch it applies
      on success, the delete carries nothing. */
  lemma UpdateAndDeleteRequests(tasks: seq<Task>, storage: Storage, id: string, updates: TaskPatch, reply: Reply<()>)
    requires Truthy(storage, TokenKey)
    ensures var u := HandleUpdateTask(tasks, storage, id, updates, reply).request.value;
      var d := HandleDeleteTask(tasks, storage, id, reply).request.value;
      && u.path == d.path && u.bearer == d.bearer
      && u.verb != d.verb
      && u.body == Some(updates) && d.body == None
  {
    Api.TaskEndpointsAgree(id);
  }

  /** All four task requests carry the same stored token. Fetching and creating
      address the task collection, with GET and POST; updating and deleting address
      the task's child of that collection. */
  lemma TaskRequestsAgree(
    tasks: seq<Task>, storage: Storage, id: string, updates: TaskPatch, reply: Reply<()>,
    title: string, description: string, priority: Option<string>, recurrence: Option<string>, created: Reply<Task>)
    requires Truthy(storage, TokenKey) && Truthy(storage, UserKey)
    ensures var f := Mount(storage).fetch;
      var c := HandleCreateTask(tasks, storage, title, description, priority, recurrence, created).request.value;
      var u := HandleUpdateTask(tasks, storage, id, updates, reply).request.value;
      var d := HandleDeleteTask(tasks, storage, id, reply).request.value;
      && f.bearer == c.bearer == u.bearer == d.bearer
      && f.path == c.path && u.path == d.path == c.path + "/" + id
      && f.verb == HttpGet && c.verb == HttpPost
  {
    Api.TaskEndpointsAgree(id);
  }

  /** The list view's filter buttons. */
  datatype TaskFilter = AllTasks | PendingOnly | CompletedOnly

  /** `filteredTasks`: every task under "all", otherwise the tasks with that status. */
  function FilteredTasks(tasks: seq<Task>, filter: TaskFilter): (r: seq<Task>)
    ensures filter == AllTasks ==> r == tasks
    ensures filter == PendingOnly ==> forall t :: t in r <==> t in tasks && t.status == Pending
    ensures filter == CompletedOnly ==> forall t :: t in r <==> t in tasks && t.status == Completed
    ensures filter != AllTasks ==> forall t :: t in r ==> t.status != InProgress
  {
    match filter
    case AllTasks => tasks
    case PendingOnly => Filter(tasks, (t: Task) => t.status == Pending)
    case CompletedOnly => Filter(tasks, (t: Task) => t.status == Completed)
  }

  /** Whether a task is listed under a filter tab. */
  predicate Shows(filter: TaskFilter, t: Task) {
    match filter
    case AllTasks => true
    case PendingOnly => t.status == Pending
    case CompletedOnly => t.status == Completed
  }

  /** The filtered list keeps the list's order and its repeated entries: no tasks show
      nothing, one task shows itself exactly when its tab lists it, and a concatenation
      shows the parts' results one after the other. */
  lemma FilteredTasksPieces(a: seq<Task>, b: seq<Task>, t: Task, filter: TaskFilter)
    ensures FilteredTasks([], filter) == []
    ensures FilteredTasks([t], filter) == if Shows(filter, t) then [t] else []
    ensures FilteredTasks(a + b, filter) == FilteredTasks(a, filter) + FilteredTasks(b, filter)
  {
    match filter
    case AllTasks =>
    case PendingOnly => FilterPieces(a, b, t, (u: Task) => u.status == Pending);
    case CompletedOnly => FilterPieces(a, b, t, (u: Task) => u.status == Completed);
  }

  /** The counts handed to the header. */
  datatype HeaderCounts = HeaderCounts(taskCount: nat, completedCount: nat)

  function Header(tasks: seq<Task>): (h: HeaderCounts)
    ensures h.taskCount == |tasks|
    ensures h.completedCount <= h.taskCount
    ensures h.completedCount == Count(tasks, (t: Task) => t.status == Completed)
  {
    HeaderCounts(|tasks|, Count(tasks, (t: Task) => t.status == Completed))
  }

  /** The arguments `handleNaturalLanguageParse` passes to `handleCreateTask`. */
  datatype CreateArgs = CreateArgs(title: string, description: string, priority: Option<string>, recurrence: Option<string>)

  function QuickAddArgs(p: Parser.ParsedTask): (a: CreateArgs)
    ensures a.title == p.title
    ensures a.description == p.description.GetOr("")
    ensures p.priority.None? <==> a.priority.None?
    ensures p.priority.Some? ==> a.priority == Some(PriorityName(p.priority.value))
    ensures a.recurrence.None?
  {
    CreateArgs(
      p.title,
      match p.description case Some(d) => d case None => "",
      match p.priority case Some(q) => Some(PriorityName(q)) case None => None,
      None)
  }

  /** A quick-added task is posted with the typed text as title, an empty description,
      pending status, its parsed priority (medium when none was found) and no recurrence. */
  lemma QuickAddRequest(text: string, now: int)
    ensures var p := Parser.ParseTaskText(text, now);
      var a := QuickAddArgs(p);
      var b := CreateRequest(a.title, a.description, a.priority, a.recurrence);
      && b.title == text
      && b.description == ""
      && b.status == Pending
      && b.priority == (if p.priority.Some? then PriorityName(p.priority.value) else "medium")
      && b.recurrence == "none"
  {
    var p := Parser.ParseTaskText(text, now);
    if p.priority.Some? {
      assert PriorityName(p.priority.value) != "";
    }
  }
}

=== FILE: forms.dfy ===
/** Form validation as the forms use it: a zod schema yields a list of issues, each
    tied to a field path, and react-hook-form shows the first issue of each field. */
module Forms {
  import opened Wrappers

  /** The message every schema gives for a malformed email address. */
  const InvalidEmail := "Invalid email address"

  /** One failed check: the field it belongs to and the message shown under it. */
  datatype Issue = Issue(path: string, message: string)

  /** `z.string().min(n, message)` on the field `path`. Lengths count characters. */
  function AtLeast(path: string, value: string, n: nat, message: string): (r: seq<Issue>)
    ensures r == [] <==> |value| >= n
    ensures r != [] ==> r == [Issue(path, message)]
  {
    if |value| >= n then [] else [Issue(path, message)]
  }

  /** `z.string().max(n, message)` on the field `path`. */
  function AtMost(path: string, value: string, n: nat, message: string): (r: seq<Issue>)
    ensures r == [] <==> |value| <= n
    ensures r != [] ==> r == [Issue(path, message)]
  {
    if |value| <= n then [] else [Issue(path, message)]
  }

  /** A check that holds or reports `message` on `path`: `.email(message)` with the
      address test as the argument, or an object-level `.refine(..., { path })`. */
  function Check(path: string, holds: bool, message: string): (r: seq<Issue>)
    ensures r == [] <==> holds
    ensures r != [] ==> r == [Issue(path, message)]
  {
    if holds then [] else [Issue(path, message)]
  }

  /** Index `i` holds the first issue of the field `path`. */
  ghost predicate FirstOn(issues: seq<Issue>, path: string, i: int) {
    0 <= i < |issues| && issues[i].path == path && forall j :: 0 <= j < i ==> issues[j].path != path
  }

  /** The message react-hook-form shows under the field `path`: that of its first issue. */
  function FieldError(issues: seq<Issue>, path: string): (r: Option<string>)
    ensures r.None? <==> forall i :: 0 <= i < |issues| ==> issues[i].path != path
    ensures r.Some? ==> exists i :: FirstOn(issues, path, i) && issues[i].message == r.value
    decreases |issues|
  {
    if |issues| == 0 then None
    else if issues[0].path == path then
      assert FirstOn(issues, path, 0);
      Some(issues[0].message)
    else
      var rest := FieldError(issues[1..], path);
      assert rest.Some? ==> exists i :: FirstOn(issues, path, i) && issues[i].message == rest.value by {
        if rest.Some? {
          var k :| FirstOn(issues[1..], path, k) && issues[1..][k].message == rest.value;
          forall j | 0 <= j < k + 1 ensures issues[j].path != path {
            if j > 0 { assert issues[j] == issues[1..][j - 1]; }
          }
          assert FirstOn(issues, path, k + 1);
        }
      }
      assert rest.None? ==> forall i :: 0 <= i < |issues| ==> issues[i].path != path by {
        if rest.None? {
          forall i | 0 <= i < |issues| ensures issues[i].path != path {
            if i > 0 { assert issues[i] == issues[1..][i - 1]; }
          }
        }
      }
      rest
  }

  /** Issues on other fields do not change what a field shows. */
  lemma {:induction false} FieldErrorSkipsOthers(a: seq<Issue>, b: seq<Issue>, path: string)
    requires forall i :: 0 <= i < |a| ==> a[i].path != path
    ensures FieldError(a + b, path) == FieldError(b, path)
    decreases |a|
  {
    if |a| > 0 {
      assert (a + b)[1..] == a[1..] + b;
      FieldErrorSkipsOthers(a[1..], b, path);
    } else {
      assert a + b == b;
    }
  }

  /** Issues on other fields after a field's own do not change what it shows. */
  lemma {:induction false} FieldErrorIgnoresTail(b: seq<Issue>, c: seq<Issue>, path: string)
    requires forall i :: 0 <= i < |c| ==> c[i].path != path
    ensures FieldError(b + c, path) == FieldError(b, path)
    decreases |b|
  {
    if |b| == 0 {
      assert b + c == c;
      assert FieldError(c, path).None?;
    } else if b[0].path != path {
      assert (b + c)[1..] == b[1..] + c;
      FieldErrorIgnoresTail(b[1..], c, path);
    }
  }

  /** Three groups of issues on other fields after a field's own leave what it shows. */
  lemma FieldErrorIgnoresTails(b: seq<Issue>, c1: seq<Issue>, c2: seq<Issue>, c3: seq<Issue>, path: string)
    requires forall i :: 0 <= i < |c1| ==> c1[i].path != path
    requires forall i :: 0 <= i < |c2| ==> c2[i].path != path
    requires forall i :: 0 <= i < |c3| ==> c3[i].path != path
    ensures FieldError(b + c1 + c2 + c3, path) == FieldError(b, path)
  {
    FieldErrorIgnoresTail(b, c1, path);
    FieldErrorIgnoresTail(b + c1, c2, path);
    FieldErrorIgnoresTail(b + c1 + c2, c3, path);
  }

  /** The error a field shows comes from its own checks alone. */
  lemma FieldErrorWithin(a: seq<Issue>, b: seq<Issue>, c: seq<Issue>, path: string)
    requires forall i :: 0 <= i < |a| ==> a[i].path != path
    requires forall i :: 0 <= i < |c| ==> c[i].path != path
    ensures FieldError(a + b + c, path) == FieldError(b, path)
  {
    assert a + b + c == a + (b + c);
    FieldErrorSkipsOthers(a, b + c, path);
    FieldErrorIgnoresTail(b, c, path);
  }
}

=== FILE: kanban.dfy ===
/** The kanban board: three status columns, and the drag-and-drop state machine that
    moves a task between them. */
module Kanban {
  import opened Wrappers
  import opened Seqs
  import opened TaskModel

  /** The columns left to right, identified by the status they hold. */
  const Columns: seq<Status> := [Pending, InProgress, Completed]

  /** The board's only state: the task being dragged, if any. */
  datatype DragState = DragState(dragged: Option<Task>)

  const NotDragging := DragState(None)

  /** An `onUpdateTask(id, updates)` call. */
  datatype UpdateCall = UpdateCall(id: string, updates: TaskPatch)

  datatype DropResult = DropResult(state: DragState, update: Option<UpdateCall>)

  /** `handleDragStart(task)`: whatever was dragged before, the next drop acts on
      `task`. Dropped on another column it moves `task` there and changes nothing
      else; dropped on its own column it does nothing. */
  function HandleDragStart(st: DragState, task: Task): (r: DragState)
    ensures forall column :: HandleDrop(r, column).update.Some? <==> task.status != column
    ensures forall column :: HandleDrop(r, column).update.Some? ==>
      && HandleDrop(r, column).update.value.id == task.id
      && Merge(task, HandleDrop(r, column).update.value.updates) == task.(status := column)
  {
    DragState(Some(task))
  }

  /** `handleDrop(column)`: a dragged task dropped on a column other than its own is
      moved there by one status-only update; in every case the drag ends. */
  function HandleDrop(st: DragState, column: Status): (r: DropResult)
    ensures r.state == NotDragging
    ensures r.update.Some? <==> st.dragged.Some? && st.dragged.value.status != column
    ensures r.update.Some? ==>
      r.update.value == UpdateCall(st.dragged.value.id, StatusPatch(column))
  {
    match st.dragged
    case Some(t) =>
      if t.status != column then DropResult(NotDragging, Some(UpdateCall(t.id, StatusPatch(column))))
      else DropResult(NotDragging, None)
    case None => DropResult(NotDragging, None)
  }

  /** A drag followed by a drop acts on the task the drag started with, and applying
      its update puts that task in the target column and changes nothing else. */
  lemma DragThenDrop(st: DragState, task: Task, column: Status)
    ensures var r := HandleDrop(HandleDragStart(st, task), column);
      && (task.status == column ==> r.update == None)
      && (task.status != column ==>
            r.update.Some? && r.update.value.id == task.id
            && Merge(task, r.update.value.updates) == task.(status := column))
  {
  }

  /** `getTasksByStatus(status)`: the column's tasks, in list order. */
  function TasksByStatus(tasks: seq<Task>, status: Status): (r: seq<Task>)
    ensures forall t :: t in r <==> t in tasks && t.status == status
  {
    Filter(tasks, (t: Task) => t.status == status)
  }

  /** Every task appears in exactly one column: the column sizes add up to the task
      count, and taking a list apart and filtering the pieces agrees with filtering
      the whole, so each column keeps the list order. */
  lemma {:induction false} ColumnsPartition(tasks: seq<Task>)
    ensures |TasksByStatus(tasks, Pending)| + |TasksByStatus(tasks, InProgress)|
      + |TasksByStatus(tasks, Completed)| == |tasks|
    ensures tasks == [] ==> forall c :: TasksByStatus(tasks, c) == []
    ensures forall a, b, c :: tasks == a + b ==>
      TasksByStatus(tasks, c) == TasksByStatus(a, c) + TasksByStatus(b, c)
  {
    CountPartition3(tasks, (t: Task) => t.status == Pending, (t: Task) => t.status == InProgress,
      (t: Task) => t.status == Completed);
    forall a, b, c | tasks == a + b
      ensures TasksByStatus(tasks, c) == TasksByStatus(a, c) + TasksByStatus(b, c)
    {
      FilterConcat(a, b, (t: Task) => t.status == c);
    }
  }

  /** `getPriorityColor(priority)`: the text colour for a priority badge. Any other
      string, and an absent priority, gets gray. */
  function PriorityColor(priority: Option<string>): (r: string)
    ensures priority == Some("high") <==> r == "text-red-500"
    ensures priority == Some("medium") <==> r == "text-yellow-500"
    ensures priority == Some("low") <==> r == "text-green-500"
    ensures r == "text-gray-500" <==> priority !in {Some("high"), Some("medium"), Some("low")}
  {
    match priority
    case Some("high") => "text-red-500"
    case Some("medium") => "text-yellow-500"
    case Some("low") => "text-green-500"
    case _ => "text-gray-500"
  }
}

=== FILE: login.dfy ===
/** The login page: its schema and what a submit does. */
module Login {
  import opened Wrappers
  import opened Browser
  import opened Forms
  import opened Auth
  import Api

  datatype LoginForm = LoginForm(email: string, password: string)

  const ShortPassword := "Password must be at least 6 characters"
  const LoginFailed := "Login failed"

  /** `loginSchema`; `isEmail` stands for zod's address check. */
  function Validate(f: LoginForm, isEmail: string -> bool): (issues: seq<Issue>)
    ensures issues == [] <==> isEmail(f.email) && |f.password| >= 6
    ensures FieldError(issues, "email") == (if isEmail(f.email) then None else Some(InvalidEmail))
    ensures FieldError(issues, "password") == (if |f.password| >= 6 then None else Some(ShortPassword))
  {
    var e := Check("email", isEmail(f.email), InvalidEmail);
    var p := AtLeast("password", f.password, 6, ShortPassword);
    FieldErrorWithin([], e, p, "email");
    FieldErrorWithin(e, p, [], "password");
    assert [] + e + p == e + p == e + p + [];
    e + p
  }

  /** The body posted: the validated data itself. */
  datatype LoginBody = LoginBody(email: string, password: string)

  /** `onSubmit` behind `handleSubmit`, given the configured API base, the storage
      before the call and how the request settles. */
  function Submit(f: LoginForm, isEmail: string -> bool, apiBase: string, storage: Storage, reply: Reply<AuthBody>)
    : (r: Submission<LoginBody>)
    ensures r.Rejected? <==> !(isEmail(f.email) && |f.password| >= 6)
    ensures r.Rejected? ==> r.issues == Validate(f, isEmail)
    ensures r.Sent? ==> r.url == Api.GetApiUrl(apiBase, Api.AuthLogin)
    ensures r.Sent? ==> r.body == LoginBody(f.email, f.password)
    ensures r.Sent? ==> r.state == AfterReply(storage, reply, LoginFailed)
  {
    var issues := Validate(f, isEmail);
    if issues != [] then Rejected(issues)
    else Sent(Api.GetApiUrl(apiBase, Api.AuthLogin), LoginBody(f.email, f.password), AfterReply(storage, reply, LoginFailed))
  }

  /** A refused login keeps storage as it was and shows the server's reason when it
      gave one, "Login failed" otherwise. */
  lemma RefusedLogin(f: LoginForm, isEmail: string -> bool, apiBase: string, storage: Storage, status: int, body: AuthBody)
    requires isEmail(f.email) && |f.password| >= 6
    ensures var r := Submit(f, isEmail, apiBase, storage, Replied(false, status, body));
      && r.Sent?
      && r.state.storage == storage
      && r.state.location == None
      && (body.message == None || body.message == Some("") ==> r.state.error == LoginFailed)
      && (body.message.Some? && body.message.value != "" ==> r.state.error == body.message.value)
  {
  }
}

=== FILE: parser.dfy ===
/** The quick-add parser: free text to a suggested task, by keyword search for a
    priority and phrase search for a relative due date; and the two input handlers
    that keep its suggestion. */
module Parser {
  import opened Wrappers
  import opened Text
  import opened Calendar
  import opened TaskModel

  /** The parser's output. `description` exists in the record but is never set. */
  datatype ParsedTask = ParsedTask(
    title: string,
    dueDate: Option<int>,
    priority: Option<Priority>,
    description: Option<string>)

  const HighKeywords: seq<string> := ["urgent", "asap", "critical", "important", "high priority"]
  const MediumKeywords: seq<string> := ["medium", "normal", "standard"]
  const LowKeywords: seq<string> := ["low", "whenever", "someday", "backlog"]

  /** The keyword table in the order the object literal lists it, which is the order
      it is scanned in. */
  const PriorityLevels: seq<(Priority, seq<string>)> :=
    [(High, HighKeywords), (Medium, MediumKeywords), (Low, LowKeywords)]

  /** The alternatives of the four date patterns, all lower-case. */
  const TodayPhrases: seq<string> := ["today", "this evening", "tonight"]
  const TomorrowPhrases: seq<string> := ["tomorrow"]
  const NextWeekPhrases: seq<string> := ["next week", "next monday"]
  const NextMonthPhrases: seq<string> := ["next month"]

  /** Some word of `words` occurs in `text`. */
  ghost predicate Mentions(text: string, words: seq<string>) {
    exists w :: w in words && Occurs(text, w)
  }

  /** `words.some((w) => text.includes(w))`. */
  function AnyOccurs(text: string, words: seq<string>): (b: bool)
    ensures b <==> Mentions(text, words)
    decreases |words|
  {
    if |words| == 0 then false
    else
      var rest := AnyOccurs(text, words[1..]);
      assert Mentions(text, words) <==> Occurs(text, words[0]) || Mentions(text, words[1..]) by {
        if Mentions(text, words) {
          var w :| w in words && Occurs(text, w);
          assert w == words[0] || w in words[1..];
        }
        if Mentions(text, words[1..]) {
          var w :| w in words[1..] && Occurs(text, w);
          assert w in words;
        }
      }
      Contains(text, words[0]) || rest
  }

  /** The scan with early `break`: the level of the first entry one of whose
      keywords occurs. */
  function FirstLevel(text: string, levels: seq<(Priority, seq<string>)>): Option<Priority>
    decreases |levels|
  {
    if |levels| == 0 then None
    else if AnyOccurs(text, levels[0].1) then Some(levels[0].0)
    else FirstLevel(text, levels[1..])
  }

  /** A `/…|…/i` regular expression made of literal alternatives, tested against `text`:
      some alternative occurs, comparing ASCII letters without regard to case. */
  function TestPhrases(text: string, phrases: seq<string>): (b: bool)
    ensures b <==> Mentions(AsciiLower(text), phrases)
  {
    AnyOccurs(AsciiLower(text), phrases)
  }

  /** The priority assigned to `text`: the first of high, medium, low that has a
      keyword occurring in the lower-cased text; none when no keyword occurs. */
  function ExtractPriority(text: string): (r: Option<Priority>)
    ensures var lower := KeywordLower(text);
      && (r == Some(High) <==> Mentions(lower, HighKeywords))
      && (r == Some(Medium) <==> !Mentions(lower, HighKeywords) && Mentions(lower, MediumKeywords))
      && (r == Some(Low) <==>
            !Mentions(lower, HighKeywords) && !Mentions(lower, MediumKeywords) && Mentions(lower, LowKeywords))
      && (r == None <==>
            !Mentions(lower, HighKeywords) && !Mentions(lower, MediumKeywords) && !Mentions(lower, LowKeywords))
  {
    var lower := KeywordLower(text);
    var tail := [(Medium, MediumKeywords), (Low, LowKeywords)];
    assert PriorityLevels == [(High, HighKeywords)] + tail;
    assert tail[1..] == [(Low, LowKeywords)];
    assert tail[1..][1..] == [];
    var h := AnyOccurs(lower, HighKeywords);
    var m := AnyOccurs(lower, MediumKeywords);
    var l := AnyOccurs(lower, LowKeywords);
    assert FirstLevel(lower, tail[1..]) == if l then Some(Low) else None;
    assert FirstLevel(lower, tail) == if m then Some(Medium) else FirstLevel(lower, tail[1..]);
    assert FirstLevel(lower, PriorityLevels) == if h then Some(High) else FirstLevel(lower, tail);
    FirstLevel(lower, PriorityLevels)
  }

  /** The due date assigned to `text` at instant `now`: the first of the four phrase
      patterns that matches decides; none when none matches. */
  function ExtractDueDate(text: string, now: int): (r: Option<int>)
    ensures var lower := AsciiLower(text);
      && (Mentions(lower, TodayPhrases) ==> r == Some(now))
      && (!Mentions(lower, TodayPhrases) && Mentions(lower, TomorrowPhrases) ==> r == Some(AddDays(now, 1)))
      && ((!Mentions(lower, TodayPhrases) && !Mentions(lower, TomorrowPhrases) && Mentions(lower, NextWeekPhrases))
            ==> r == Some(AddDays(now, 7)))
      && ((!Mentions(lower, TodayPhrases) && !Mentions(lower, TomorrowPhrases) && !Mentions(lower, NextWeekPhrases)
             && Mentions(lower, NextMonthPhrases))
            ==> r == Some(AddMonths(now, 1)))
      && (r == None <==>
            !Mentions(lower, TodayPhrases) && !Mentions(lower, TomorrowPhrases)
            && !Mentions(lower, NextWeekPhrases) && !Mentions(lower, NextMonthPhrases))
  {
    if TestPhrases(text, TodayPhrases) then Some(now)
    else if TestPhrases(text, TomorrowPhrases) then Some(AddDays(now, 1))
    else if TestPhrases(text, NextWeekPhrases) then Some(AddDays(now, 7))
    else if TestPhrases(text, NextMonthPhrases) then Some(AddMonths(now, 1))
    else None
  }

  /** `parseTaskText(text)` with the clock reading `now`. The title is the text
      exactly as typed. The dead `specificDate` pattern contributes nothing. */
  function ParseTaskText(text: string, now: int): (r: ParsedTask)
    ensures r.title == text
    ensures r.description == None
    ensures r.priority == ExtractPriority(text)
    ensures r.dueDate == ExtractDueDate(text, now)
  {
    ParsedTask(text, ExtractDueDate(text, now), ExtractPriority(text), None)
  }

  /** The component's state: the input box and the suggestion shown under it. */
  datatype ParserState = ParserState(input: string, suggestion: Option<ParsedTask>)

  const InitialParserState := ParserState("", None)

  /** `handleInputChange`: keep the typed value; suggest its parse unless it is blank. */
  function HandleInputChange(st: ParserState, value: string, now: int): (r: ParserState)
    ensures r.input == value
    ensures r.suggestion == None <==> IsBlank(value)
    ensures r.suggestion != None ==> r.suggestion == Some(ParseTaskText(value, now))
  {
    TrimEmptyIffBlank(value);
    if Trim(value) != "" then ParserState(value, Some(ParseTaskText(value, now)))
    else ParserState(value, None)
  }

  datatype AddResult = AddResult(state: ParserState, emitted: Option<ParsedTask>)

  /** `handleAddTask`: hand the suggestion to `onTaskParsed` and clear the box; with no
      suggestion, do nothing. */
  function HandleAddTask(st: ParserState): (r: AddResult)
    ensures st.suggestion == None ==> r.emitted == None && r.state == st
    ensures st.suggestion != None ==> r.emitted == st.suggestion && r.state == InitialParserState
  {
    match st.suggestion
    case None => AddResult(st, None)
    case Some(p) => AddResult(InitialParserState, Some(p))
  }

  /** Typing a non-blank text and pressing Add Task emits the parse of that text,
      untrimmed, exactly once: a second press emits nothing. */
  lemma TypeThenAddTwice(st: ParserState, value: string, now: int)
    requires !IsBlank(value)
    ensures var typed := HandleInputChange(st, value, now);
      var first := HandleAddTask(typed);
      var second := HandleAddTask(first.state);
      && first.emitted == Some(ParseTaskText(value, now))
      && first.emitted.value.title == value
      && first.state == InitialParserState
      && second.emitted == None
  {
  }

  /** No word of `words` occurs in `s` when each word holds a character (its entry in
      `absent`) that `s` lacks. */
  lemma NoneOccur(s: string, words: seq<string>, absent: string)
    requires |absent| == |words|
    requires forall k :: 0 <= k < |words| ==> absent[k] in words[k] && absent[k] !in s
    ensures !Mentions(s, words)
  {
    forall k | 0 <= k < |words| ensures !Occurs(s, words[k]) {
      AbsentCharRulesOut(s, words[k], absent[k]);
    }
  }

  /** "Complete report urgent" is high priority. */
  lemma HighPriorityExample()
    ensures ExtractPriority("Complete report urgent") == Some(High)
  {
    assert KeywordLower("Complete report urgent") == "complete report urgent";
    assert "complete report urgent"[16..22] == "urgent";
    assert OccursAt("complete report urgent", "urgent", 16);
  }

  /** "Review code medium priority" is medium: no high keyword occurs in it. */
  lemma MediumPriorityExample()
    ensures ExtractPriority("Review code medium priority") == Some(Medium)
  {
    var s := "review code medium priority";
    assert KeywordLower("Review code medium priority") == s;
    NoneOccur(s, HighKeywords, "gslah");
    assert s[12..18] == "medium";
    assert OccursAt(s, "medium", 12);
    assert Occurs(s, "medium");
    assert "medium" in MediumKeywords;
    assert Mentions(s, MediumKeywords);
  }

  /** "Clean up backlog low" is low priority: it holds "backlog" and "low" and no
      keyword of a higher level. */
  lemma LowPriorityExample()
    ensures ExtractPriority("Clean up backlog low") == Some(Low)
  {
    var s := "clean up backlog low";
    assert KeywordLower("Clean up backlog low") == s;
    NoneOccur(s, HighKeywords, "rsrih");
    NoneOccur(s, MediumKeywords, "mrs");
    assert s[17..20] == "low";
    assert OccursAt(s, "low", 17);
    assert Occurs(s, "low");
    assert "low" in LowKeywords;
    assert Mentions(s, LowKeywords);
  }

  /** "New task" has no priority keyword, so the parse carries no priority. */
  lemma NoPriorityExample(now: int)
    ensures ParseTaskText("New task", now).priority == None
    ensures ParseTaskText("New task", now).title == "New task"
  {
    var s := "new task";
    assert KeywordLower("New task") == s;
    NoneOccur(s, HighKeywords, "upcih");
    NoneOccur(s, MediumKeywords, "mod");
    NoneOccur(s, LowKeywords, "lhob");
  }

  /** "Meet with team tomorrow" is due one day after `now`. */
  lemma TomorrowExample(now: int)
    ensures ExtractDueDate("Meet with team tomorrow", now) == Some(AddDays(now, 1))
  {
    var s := "meet with team tomorrow";
    assert AsciiLower("Meet with team tomorrow") == s;
    NoneOccur(s, TodayPhrases, "yvn");
    assert s[15..23] == "tomorrow";
    assert OccursAt(s, "tomorrow", 15);
  }

  /** "Finish project today" is due at `now`. */
  lemma TodayExample(now: int)
    ensures ExtractDueDate("Finish project today", now) == Some(now)
  {
    assert AsciiLower("Finish project today") == "finish project today";
    assert "finish project today"[15..20] == "today";
    assert OccursAt("finish project today", "today", 15);
  }

  /** Matching is by substring, not by word: "Follow up" is low priority because
      "follow" contains "low". */
  lemma SubstringMatchExample()
    ensures ExtractPriority("Follow up") == Some(Low)
  {
    var s := "follow up";
    assert KeywordLower("Follow up") == s;
    NoneOccur(s, HighKeywords, "rscih");
    NoneOccur(s, MediumKeywords, "mns");
    assert s[3..6] == "low";
    assert OccursAt(s, "low", 3);
    assert Occurs(s, "low");
    assert "low" in LowKeywords;
  }
}

=== FILE: profile.dfy ===
/** The profile page: the mount guard, loading the profile, and the two forms (update
    profile, change password) with their schemas and outcomes. */
module Profile {
  import opened Wrappers
  import opened Browser
  import opened Forms
  import Auth
  import Api

  const LoginPath := "/auth/login"

  /** What the page holds: the loaded user, the loading flag, local storage, where it
      navigated to, and the four message lines under the two forms. */
  datatype Page = Page(
    user: Option<User>,
    loading: bool,
    storage: Storage,
    location: Option<string>,
    profileError: string,
    profileSuccess: string,
    passwordError: string,
    passwordSuccess: string)

  function InitialPage(storage: Storage): (p: Page)
    ensures p.user.None? && p.loading && p.storage == storage && p.location.None?
  {
    Page(None, true, storage, None, "", "", "", "")
  }

  /** What the mount effect does: go to the login page, or GET the profile from `url`
      with the bearer `token`. */
  datatype MountAction = RedirectToLogin | FetchProfile(url: string, token: Stored)

  /** The mount guard, given the configured API base: without a truthy token and a
      truthy user the page goes to the login page and fetches nothing; otherwise it
      fetches the profile endpoint with the stored token. */
  function Mount(storage: Storage, apiBase: string): (a: MountAction)
    ensures a == RedirectToLogin <==> !Truthy(storage, TokenKey) || !Truthy(storage, UserKey)
    ensures a.FetchProfile? ==>
      TokenKey in storage && a.token == storage[TokenKey] && a.url == Api.GetApiUrl(apiBase, Api.AuthProfile)
  {
    if !Truthy(storage, TokenKey) || !Truthy(storage, UserKey) then RedirectToLogin
    else FetchProfile(Api.GetApiUrl(apiBase, "/api/auth/profile"), storage[TokenKey])
  }

  /** The parsed reply of the profile endpoints. */
  datatype ProfileBody = ProfileBody(message: Option<string>, user: Option<User>)

  /** `fetchProfile` once the request settles: an ok reply shows the returned user, a
      401 drops the stored credentials and goes to the login page, anything else
      changes nothing; loading ends in every case. */
  function AfterFetchProfile(p: Page, reply: Reply<ProfileBody>): (q: Page)
    ensures !q.loading
    ensures reply.Replied? && reply.ok ==> q == p.(user := reply.body.user, loading := false)
    ensures reply.Replied? && !reply.ok && reply.status == 401 ==>
      q == p.(loading := false, storage := p.storage - {TokenKey, UserKey}, location := Some(LoginPath))
    ensures reply.Threw? || (!reply.ok && reply.status != 401) ==> q == p.(loading := false)
  {
    match reply
    case Threw => p.(loading := false)
    case Replied(ok, status, body) =>
      if ok then p.(user := body.user, loading := false)
      else if status == 401 then p.(loading := false, storage := p.storage - {TokenKey, UserKey}, location := Some(LoginPath))
      else p.(loading := false)
  }

  /** After a 401 the credentials are gone, so the next mount redirects. */
  lemma UnauthorizedThenRedirect(p: Page, body: ProfileBody, apiBase: string)
    ensures Mount(AfterFetchProfile(p, Replied(false, 401, body)).storage, apiBase) == RedirectToLogin
  {
  }

  /** The update-profile form as the schema receives it. */
  datatype ProfileForm = ProfileForm(username: Option<string>, email: Option<string>)

  const UsernameTooShort := "Username must be at least 3 characters"
  const UsernameTooLong := "Username must be at most 20 characters"
  const NeedOneField := "At least one field must be provided"

  /** The field is present and not the empty string: JavaScript truthiness. */
  predicate Given(v: Option<string>) {
    v.Some? && v.value != ""
  }

  /** `updateProfileSchema`: a present username of 3 to 20 characters, a present email
      that is an address, and at least one of the two given. The last check belongs to
      the form as a whole (path ""). */
  function ValidateProfile(f: ProfileForm, isEmail: string -> bool): (issues: seq<Issue>)
    ensures issues == [] <==>
      (f.username.Some? ==> 3 <= |f.username.value| <= 20)
      && (f.email.Some? ==> isEmail(f.email.value))
      && (Given(f.username) || Given(f.email))
    ensures FieldError(issues, "") == (if Given(f.username) || Given(f.email) then None else Some(NeedOneField))
  {
    var u := match f.username
      case None => []
      case Some(n) => AtLeast("username", n, 3, UsernameTooShort) + AtMost("username", n, 20, UsernameTooLong);
    var e := match f.email
      case None => []
      case Some(m) => Check("email", isEmail(m), InvalidEmail);
    var r := Check("", Given(f.username) || Given(f.email), NeedOneField);
    assert forall i :: 0 <= i < |u| ==> u[i].path == "username";
    FieldErrorWithin(u + e, r, [], "");
    assert u + e + r + [] == u + e + r;
    u + e + r
  }

  /** The form an untouched profile page submits: it has no default values, so both
      boxes read as empty text. */
  const UntouchedForm := ProfileForm(Some(""), Some(""))

  /** A form with neither field filled in is refused at the form level, an issue the
      page never displays. The untouched form is also refused on its fields: the
      username shows the too-short message, and the email shows the address message
      when "" fails the address check (zod's check always refuses it). A form with both
      fields absent has no field errors, so its refusal would be silent; the page's
      registered boxes never submit one. */
  lemma EmptyProfileFormRefused(isEmail: string -> bool)
    ensures FieldError(ValidateProfile(UntouchedForm, isEmail), "") == Some(NeedOneField)
    ensures FieldError(ValidateProfile(UntouchedForm, isEmail), "username") == Some(UsernameTooShort)
    ensures FieldError(ValidateProfile(UntouchedForm, isEmail), "email") ==
      (if isEmail("") then None else Some(InvalidEmail))
    ensures FieldError(ValidateProfile(ProfileForm(None, None), isEmail), "") == Some(NeedOneField)
    ensures FieldError(ValidateProfile(ProfileForm(None, None), isEmail), "username") == None
    ensures FieldError(ValidateProfile(ProfileForm(None, None), isEmail), "email") == None
  {
  }

  /** The change-password form. */
  datatype PasswordForm = PasswordForm(currentPassword: string, newPassword: string, confirmPassword: string)

  const CurrentRequired := "Current password is required"
  const NewTooShort := "New password must be at least 8 characters"
  const ConfirmTooShort := "Please confirm your password"
  const PasswordsDiffer := "Passwords do not match"

  /** `changePasswordSchema`. The confirmation field shows its own length error first
      and the mismatch otherwise. */
  function ValidatePassword(f: PasswordForm): (issues: seq<Issue>)
    ensures issues == [] <==>
      |f.currentPassword| >= 1 && |f.newPassword| >= 8 && |f.confirmPassword| >= 8
      && f.newPassword == f.confirmPassword
    ensures FieldError(issues, "confirmPassword") ==
      if |f.confirmPassword| < 8 then Some(ConfirmTooShort)
      else if f.newPassword != f.confirmPassword then Some(PasswordsDiffer)
      else None
    ensures FieldError(issues, "newPassword") == (if |f.newPassword| >= 8 then None else Some(NewTooShort))
  {
    var c := AtLeast("currentPassword", f.currentPassword, 1, CurrentRequired);
    var n := AtLeast("newPassword", f.newPassword, 8, NewTooShort);
    var k := AtLeast("confirmPassword", f.confirmPassword, 8, ConfirmTooShort);
    var m := Check("confirmPassword", f.newPassword == f.confirmPassword, PasswordsDiffer);
    PasswordGroups(c, n, k, m);
    c + n + k + m
  }

  /** Where each group of change-password issues shows: the confirmation's length
      issue, when there is one, comes before the mismatch. */
  lemma PasswordGroups(c: seq<Issue>, n: seq<Issue>, k: seq<Issue>, m: seq<Issue>)
    requires forall i :: 0 <= i < |c| ==> c[i].path == "currentPassword"
    requires forall i :: 0 <= i < |n| ==> n[i].path == "newPassword"
    requires forall i :: 0 <= i < |k| ==> k[i].path == "confirmPassword"
    requires forall i :: 0 <= i < |m| ==> m[i].path == "confirmPassword"
    ensures FieldError(c + n + k + m, "confirmPassword") ==
      if k != [] then FieldError(k, "confirmPassword") else FieldError(m, "confirmPassword")
    ensures FieldError(c + n + k + m, "newPassword") == FieldError(n, "newPassword")
  {
    FieldErrorWithin(c + n, k + m, [], "confirmPassword");
    assert c + n + (k + m) + [] == c + n + k + m;
    FieldErrorWithin(c, n, k + m, "newPassword");
    assert c + n + (k + m) == c + n + k + m;
    if k == [] {
      assert k + m == m;
    } else {
      assert (k + m)[0] == k[0];
    }
  }

  /** Equal passwords of the required length satisfy the confirmation's own length
      check, so the schema amounts to: a current password, a new one of 8 or more
      characters, and a matching confirmation. */
  lemma PasswordRuleSimplified(f: PasswordForm)
    ensures ValidatePassword(f) == [] <==>
      |f.currentPassword| >= 1 && |f.newPassword| >= 8 && f.newPassword == f.confirmPassword
  {
  }

  /** A submit of either form: refused by its schema, sent back to login for want of
      a token, or sent to `url` with `body` and ending in `page`. */
  datatype Attempt<B> = Invalid(issues: seq<Issue>) | NoToken(page: Page) | Requested(url: string, body: B, page: Page)

  const ProfileUpdated := "Profile updated successfully!"
  const UpdateFailed := "Failed to update profile"

  /** `onUpdateProfile`: the body is the validated form; success shows the message and
      replaces both the shown and the stored user. */
  function UpdateProfile(p: Page, f: ProfileForm, isEmail: string -> bool, apiBase: string, reply: Reply<ProfileBody>)
    : (a: Attempt<ProfileForm>)
    ensures a.Invalid? <==> ValidateProfile(f, isEmail) != []
    ensures a.NoToken? <==> ValidateProfile(f, isEmail) == [] && !Truthy(p.storage, TokenKey)
    ensures a.NoToken? ==> a.page == p.(profileError := "", profileSuccess := "", location := Some(LoginPath))
    ensures a.Requested? ==> a.url == Api.GetApiUrl(apiBase, Api.AuthUpdateProfile) && a.body == f
    ensures a.Requested? && reply.Threw? ==> a.page == p.(profileError := GenericError, profileSuccess := "")
    ensures a.Requested? && reply.Replied? && !reply.ok ==>
      a.page == p.(profileError := MessageOr(reply.body.message, UpdateFailed), profileSuccess := "")
    ensures a.Requested? && reply.Replied? && reply.ok ==>
      a.page == p.(profileError := "", profileSuccess := ProfileUpdated, user := reply.body.user,
                   storage := p.storage[UserKey := Auth.StoredUser(reply.body.user)])
  {
    var issues := ValidateProfile(f, isEmail);
    if issues != [] then Invalid(issues)
    else
      var cleared := p.(profileError := "", profileSuccess := "");
      if !Truthy(p.storage, TokenKey) then NoToken(cleared.(location := Some(LoginPath)))
      else
        var url := Api.GetApiUrl(apiBase, Api.AuthUpdateProfile);
        match reply
        case Threw => Requested(url, f, cleared.(profileError := GenericError))
        case Replied(ok, _, body) =>
          if !ok then Requested(url, f, cleared.(profileError := MessageOr(body.message, UpdateFailed)))
          else Requested(url, f, cleared.(profileSuccess := ProfileUpdated, user := body.user,
                                         storage := p.storage[UserKey := Auth.StoredUser(body.user)]))
  }

  /** The body of the change-password request: never the confirmation. */
  datatype PasswordBody = PasswordBody(currentPassword: string, newPassword: string)

  const PasswordChanged := "Password changed successfully!"
  const ChangeFailed := "Failed to change password"

  /** `onChangePassword`: only the password messages change; storage and the user are
      left alone. */
  function ChangePassword(p: Page, f: PasswordForm, apiBase: string, reply: Reply<ProfileBody>)
    : (a: Attempt<PasswordBody>)
    ensures a.Invalid? <==> ValidatePassword(f) != []
    ensures a.NoToken? <==> ValidatePassword(f) == [] && !Truthy(p.storage, TokenKey)
    ensures a.NoToken? ==> a.page == p.(passwordError := "", passwordSuccess := "", location := Some(LoginPath))
    ensures a.Requested? ==> a.url == Api.GetApiUrl(apiBase, Api.AuthChangePassword)
    ensures a.Requested? ==> a.body == PasswordBody(f.currentPassword, f.newPassword)
    ensures a.Requested? && reply.Threw? ==> a.page == p.(passwordError := GenericError, passwordSuccess := "")
    ensures a.Requested? && reply.Replied? && !reply.ok ==>
      a.page == p.(passwordError := MessageOr(reply.body.message, ChangeFailed), passwordSuccess := "")
    ensures a.Requested? && reply.Replied? && reply.ok ==>
      a.page == p.(passwordError := "", passwordSuccess := PasswordChanged)
  {
    var issues := ValidatePassword(f);
    if issues != [] then Invalid(issues)
    else
      var cleared := p.(passwordError := "", passwordSuccess := "");
      if !Truthy(p.storage, TokenKey) then NoToken(cleared.(location := Some(LoginPath)))
      else
        var url := Api.GetApiUrl(apiBase, Api.AuthChangePassword);
        var body := PasswordBody(f.currentPassword, f.newPassword);
        match reply
        case Threw => Requested(url, body, cleared.(passwordError := GenericError))
        case Replied(ok, _, result) =>
          if !ok then Requested(url, body, cleared.(passwordError := MessageOr(result.message, ChangeFailed)))
          else Requested(url, body, cleared.(passwordSuccess := PasswordChanged))
  }

  /** The page reads the profile from the address it sends profile updates to. */
  lemma ProfileReadWhereUpdated(p: Page, f: ProfileForm, isEmail: string -> bool, apiBase: string, reply: Reply<ProfileBody>)
    requires Truthy(p.storage, UserKey)
    ensures var m := Mount(p.storage, apiBase);
      var a := UpdateProfile(p, f, isEmail, apiBase, reply);
      a.Requested? ==> m.FetchProfile? && m.url == a.url && m.token == p.storage[TokenKey]
  {
    Api.TaskEndpointsAgree("");
  }
}

=== FILE: register.dfy ===
/** The registration page: its schema, the body it posts and what a submit does. */
module Register {
  import opened Wrappers
  import opened Browser
  import opened Forms
  import opened Auth
  import Api

  datatype RegisterForm = RegisterForm(username: string, email: string, password: string, confirmPassword: string)

  const UsernameTooShort := "Username must be at least 3 characters"
  const UsernameTooLong := "Username must be less than 20 characters"
  const ShortPassword := "Password must be at least 8 characters"
  const PasswordsDiffer := "Passwords don't match"
  const RegistrationFailed := "Registration failed"

  /** The username checks: at least 3 and at most 20 characters (20 itself passes,
      whatever the message says). */
  function UsernameIssues(username: string): (issues: seq<Issue>)
    ensures issues == [] <==> 3 <= |username| <= 20
    ensures forall i :: 0 <= i < |issues| ==> issues[i].path == "username"
    ensures |username| < 3 ==> issues == [Issue("username", UsernameTooShort)]
    ensures |username| > 20 ==> issues == [Issue("username", UsernameTooLong)]
  {
    AtLeast("username", username, 3, UsernameTooShort) + AtMost("username", username, 20, UsernameTooLong)
  }

  /** `registerSchema`. The match refinement runs even when a field check failed, so
      a mismatch is reported beside the field errors. */
  function Validate(f: RegisterForm, isEmail: string -> bool): (issues: seq<Issue>)
    ensures issues == [] <==>
      3 <= |f.username| <= 20 && isEmail(f.email) && |f.password| >= 8 && f.password == f.confirmPassword
    ensures FieldError(issues, "confirmPassword") ==
      (if f.password == f.confirmPassword then None else Some(PasswordsDiffer))
    ensures FieldError(issues, "password") == (if |f.password| >= 8 then None else Some(ShortPassword))
    ensures FieldError(issues, "email") == (if isEmail(f.email) then None else Some(InvalidEmail))
    ensures FieldError(issues, "username") ==
      (if |f.username| < 3 then Some(UsernameTooShort)
       else if |f.username| > 20 then Some(UsernameTooLong)
       else None)
  {
    var u := UsernameIssues(f.username);
    var e := Check("email", isEmail(f.email), InvalidEmail);
    var p := AtLeast("password", f.password, 8, ShortPassword);
    var c := Check("confirmPassword", f.password == f.confirmPassword, PasswordsDiffer);
    FourFields(u, e, p, c);
    UsernameError(f.username, e, p, c);
    UsernameShown(f.username);
    u + e + p + c
  }

  /** The username field shows the message of its one failed check, whatever issues
      of the other fields follow. */
  lemma UsernameError(username: string, e: seq<Issue>, p: seq<Issue>, c: seq<Issue>)
    requires forall i :: 0 <= i < |e| ==> e[i].path == "email"
    requires forall i :: 0 <= i < |p| ==> p[i].path == "password"
    requires forall i :: 0 <= i < |c| ==> c[i].path == "confirmPassword"
    ensures FieldError(UsernameIssues(username) + e + p + c, "username") ==
      FieldError(UsernameIssues(username), "username")
  {
    assert "email"[0] != "username"[0] && "password"[0] != "username"[0] && "confirmPassword"[0] != "username"[0];
    FieldErrorIgnoresTails(UsernameIssues(username), e, p, c, "username");
  }

  lemma UsernameShown(username: string)
    ensures FieldError(UsernameIssues(username), "username") ==
      (if |username| < 3 then Some(UsernameTooShort)
       else if |username| > 20 then Some(UsernameTooLong)
       else None)
  {
  }

  /** Four groups of issues, one per field, each show under their own field only. */
  lemma FourFields(u: seq<Issue>, e: seq<Issue>, p: seq<Issue>, c: seq<Issue>)
    requires forall i :: 0 <= i < |u| ==> u[i].path == "username"
    requires forall i :: 0 <= i < |e| ==> e[i].path == "email"
    requires forall i :: 0 <= i < |p| ==> p[i].path == "password"
    requires forall i :: 0 <= i < |c| ==> c[i].path == "confirmPassword"
    ensures FieldError(u + e + p + c, "email") == FieldError(e, "email")
    ensures FieldError(u + e + p + c, "password") == FieldError(p, "password")
    ensures FieldError(u + e + p + c, "confirmPassword") == FieldError(c, "confirmPassword")
  {
    FieldErrorWithin(u, e, p + c, "email");
    assert u + e + (p + c) == u + e + p + c;
    FieldErrorWithin(u + e, p, c, "password");
    FieldErrorWithin(u + e + p, c, [], "confirmPassword");
    assert u + e + p + c + [] == u + e + p + c;
  }

  /** The body posted: the form without `confirmPassword`. */
  datatype RegisterBody = RegisterBody(username: string, email: string, password: string)

  function Submit(f: RegisterForm, isEmail: string -> bool, apiBase: string, storage: Storage, reply: Reply<AuthBody>)
    : (r: Submission<RegisterBody>)
    ensures r.Rejected? <==> Validate(f, isEmail) != []
    ensures r.Rejected? ==> r.issues == Validate(f, isEmail)
    ensures r.Sent? ==> r.url == Api.GetApiUrl(apiBase, Api.AuthRegister)
    ensures r.Sent? ==> r.body == RegisterBody(f.username, f.email, f.password)
    ensures r.Sent? ==> r.state == AfterReply(storage, reply, RegistrationFailed)
  {
    var issues := Validate(f, isEmail);
    if issues != [] then Rejected(issues)
    else
      Sent(Api.GetApiUrl(apiBase, Api.AuthRegister), RegisterBody(f.username, f.email, f.password),
        AfterReply(storage, reply, RegistrationFailed))
  }

  /** The username boundaries: 3 and 20 characters pass, 2 and 21 do not. */
  lemma UsernameBounds()
    ensures UsernameIssues("abc") == []
    ensures UsernameIssues("abcdefghijklmnopqrst") == []
    ensures UsernameIssues("ab") == [Issue("username", UsernameTooShort)]
    ensures UsernameIssues("abcdefghijklmnopqrstu") == [Issue("username", UsernameTooLong)]
  {
  }

  /** Mismatched passwords block the submit and put "Passwords don't match" under the
      confirmation field, whatever else is wrong with the form. */
  lemma MismatchBlocks(f: RegisterForm, isEmail: string -> bool)
    requires f.password != f.confirmPassword
    ensures Submit(f, isEmail, "", map[], Threw).Rejected?
    ensures FieldError(Validate(f, isEmail), "confirmPassword") == Some(PasswordsDiffer)
  {
  }
}

=== FILE: routes.dfy ===
/** The top-level dispatcher: the browser path selects one of five pages. */
module Routes {

  datatype View = Home | Login | Register | Dashboard | Profile

  /** `renderPage`: an exact match of the path against five known paths (two of them
      for Home); every other string, prefixes and extensions included, falls back to Home. */
  function RenderPage(path: string): (v: View)
    ensures v == Login <==> path == "/auth/login"
    ensures v == Register <==> path == "/auth/register"
    ensures v == Dashboard <==> path == "/dashboard"
    ensures v == Profile <==> path == "/dashboard/profile"
    ensures v == Home <==>
      path != "/auth/login" && path != "/auth/register" && path != "/dashboard" && path != "/dashboard/profile"
  {
    match path
    case "/" => Home
    case "/home" => Home
    case "/auth/login" => Login
    case "/auth/register" => Register
    case "/dashboard" => Dashboard
    case "/dashboard/profile" => Profile
    case _ => Home
  }

  /** The six known paths, each with the page the application tests expect for it. */
  const KnownRoutes: seq<(string, View)> := [
    ("/", Home), ("/home", Home), ("/auth/login", Login),
    ("/auth/register", Register), ("/dashboard", Dashboard), ("/dashboard/profile", Profile)
  ]

  /** Every known path selects its page, and the sample unknown paths select Home. */
  lemma KnownRoutesResolve()
    ensures forall k :: 0 <= k < |KnownRoutes| ==> RenderPage(KnownRoutes[k].0) == KnownRoutes[k].1
    ensures RenderPage("/unknown/path") == Home
    ensures RenderPage("/auth") == Home && RenderPage("/dashboard/") == Home
    ensures RenderPage("") == Home && RenderPage("/DASHBOARD") == Home
  {
  }

  /** The known paths that select page `v`. */
  function KnownPreimage(v: View): set<string> {
    set k | 0 <= k < |KnownRoutes| && RenderPage(KnownRoutes[k].0) == v :: KnownRoutes[k].0
  }

  /** Home is selected by two of the known paths, every other page by exactly one. */
  lemma PreimagesAmongKnownPaths()
    ensures KnownPreimage(Home) == {"/", "/home"}
    ensures KnownPreimage(Login) == {"/auth/login"}
    ensures KnownPreimage(Register) == {"/auth/register"}
    ensures KnownPreimage(Dashboard) == {"/dashboard"}
    ensures KnownPreimage(Profile) == {"/dashboard/profile"}
  {
    KnownRoutesResolve();
    assert KnownRoutes[0].0 in KnownPreimage(Home);
    assert KnownRoutes[1].0 in KnownPreimage(Home);
    assert KnownRoutes[2].0 in KnownPreimage(Login);
    assert KnownRoutes[3].0 in KnownPreimage(Register);
    assert KnownRoutes[4].0 in KnownPreimage(Dashboard);
    assert KnownRoutes[5].0 in KnownPreimage(Profile);
  }
}

=== FILE: seqs.dfy ===
/** Order-preserving filtering and counting over sequences, the `Array.prototype.filter`
    and `filter(...).length` idioms the components rely on. */
module Seqs {

  /** The elements of `s` that satisfy `p`, in their original order. */
  function Filter<T(!new)>(s: seq<T>, p: T -> bool): (r: seq<T>)
    ensures |r| <= |s|
    ensures forall x :: x in r <==> x in s && p(x)
    ensures forall i :: 0 <= i < |r| ==> p(r[i])
    decreases |s|
  {
    if |s| == 0 then []
    else if p(s[0]) then [s[0]] + Filter(s[1..], p)
    else Filter(s[1..], p)
  }

  /** How many elements of `s` satisfy `p`. */
  function Count<T(!new)>(s: seq<T>, p: T -> bool): (n: nat)
    ensures n <= |s|
    ensures n == 0 <==> forall i :: 0 <= i < |s| ==> !p(s[i])
  {
    var r := Filter(s, p);
    assert |r| != 0 ==> exists i :: 0 <= i < |s| && p(s[i]) by {
      if |r| != 0 {
        assert r[0] in s;
        var i :| 0 <= i < |s| && s[i] == r[0];
        assert p(s[i]);
      }
    }
    assert |r| == 0 ==> forall i :: 0 <= i < |s| ==> !p(s[i]) by {
      if |r| == 0 {
        forall i | 0 <= i < |s| ensures !p(s[i]) {
          assert s[i] in s;
        }
      }
    }
    |r|
  }

  /** Filtering distributes over concatenation: the result of filtering a sequence is
      determined piecewise, which is what "order-preserving subsequence" means. */
  lemma {:induction false} FilterConcat<T(!new)>(a: seq<T>, b: seq<T>, p: T -> bool)
    ensures Filter(a + b, p) == Filter(a, p) + Filter(b, p)
    decreases |a|
  {
    if |a| == 0 {
      assert a + b == b;
    } else {
      assert (a + b)[1..] == a[1..] + b;
      FilterConcat(a[1..], b, p);
    }
  }

  /** Filtering is fixed by three cases: nothing from nothing, one element exactly when
      it passes, and a concatenation part by part. Together they pin the result down to
      the passing elements in their original order, each as often as it occurs. */
  lemma FilterPieces<T(!new)>(a: seq<T>, b: seq<T>, x: T, p: T -> bool)
    ensures Filter([], p) == []
    ensures Filter([x], p) == if p(x) then [x] else []
    ensures Filter(a + b, p) == Filter(a, p) + Filter(b, p)
  {
    assert [x][1..] == [];
    FilterConcat(a, b, p);
  }

  /** A predicate every element satisfies keeps the whole sequence. */
  lemma {:induction false} FilterKeepsAll<T(!new)>(s: seq<T>, p: T -> bool)
    requires forall i :: 0 <= i < |s| ==> p(s[i])
    ensures Filter(s, p) == s
    decreases |s|
  {
    if |s| > 0 {
      FilterKeepsAll(s[1..], p);
    }
  }

  /** Three predicates that split every element exactly one way split the count. */
  lemma {:induction false} CountPartition3<T(!new)>(s: seq<T>, p: T -> bool, q: T -> bool, r: T -> bool)
    requires forall i :: 0 <= i < |s| ==>
      (if p(s[i]) then 1 else 0) + (if q(s[i]) then 1 else 0) + (if r(s[i]) then 1 else 0) == 1
    ensures Count(s, p) + Count(s, q) + Count(s, r) == |s|
    decreases |s|
  {
    if |s| > 0 {
      CountPartition3(s[1..], p, q, r);
    }
  }

  /** Two complementary predicates split the count. */
  lemma {:induction false} CountComplement<T(!new)>(s: seq<T>, p: T -> bool, q: T -> bool)
    requires forall i :: 0 <= i < |s| ==> (p(s[i]) <==> !q(s[i]))
    ensures Count(s, p) + Count(s, q) == |s|
    decreases |s|
  {
    if |s| > 0 {
      CountComplement(s[1..], p, q);
    }
  }

  /** Filtering out only elements that fail `p` leaves the `p`-count unchanged. */
  lemma {:induction false} CountAfterFilter<T(!new)>(s: seq<T>, keep: T -> bool, p: T -> bool)
    requires forall i :: 0 <= i < |s| && !keep(s[i]) ==> !p(s[i])
    ensures Count(Filter(s, keep), p) == Count(s, p)
    decreases |s|
  {
    if |s| > 0 {
      CountAfterFilter(s[1..], keep, p);
      if keep(s[0]) {
        assert Filter(s, keep) == [s[0]] + Filter(s[1..], keep);
        assert ([s[0]] + Filter(s[1..], keep))[1..] == Filter(s[1..], keep);
      }
    }
  }
}

=== FILE: sessions.dfy ===
/** The session manager of the dashboard's sessions view: three sessions fixed at mount, revoking a
    session, the device classification behind each icon, and the overview counts. */
module Sessions {
  import opened Seqs
  import opened Text

  /** A signed-in device; `lastActive` is an instant in milliseconds. */
  datatype Session = Session(id: string, device: string, location: string, lastActive: int, current: bool)

  /** The sessions the component starts with, relative to the mount time `now`: the
      current one, one active an hour ago and one a day ago. */
  function InitialSessions(now: int): (r: seq<Session>)
    ensures |r| == 3
    ensures r[0].id == "1" && r[1].id == "2" && r[2].id == "3"
    ensures r[0].current && !r[1].current && !r[2].current
    ensures r[0].lastActive == now && r[1].lastActive == now - 3_600_000 && r[2].lastActive == now - 86_400_000
  {
    [ Session("1", "Chrome on MacBook Pro", "San Francisco, CA", now, true),
      Session("2", "Safari on iPhone", "San Francisco, CA", now - 3_600_000, false),
      Session("3", "Chrome on Windows", "New York, NY", now - 86_400_000, false) ]
  }

  /** `handleRevokeSession(id)`: every session with another id, in order. */
  function Revoke(sessions: seq<Session>, id: string): (r: seq<Session>)
    ensures forall s :: s in r <==> s in sessions && s.id != id
  {
    Filter(sessions, (s: Session) => s.id != id)
  }

  /** Revoking an id no session has leaves the list as it was. */
  lemma RevokeUnknownId(sessions: seq<Session>, id: string)
    requires forall i :: 0 <= i < |sessions| ==> sessions[i].id != id
    ensures Revoke(sessions, id) == sessions
  {
    FilterKeepsAll(sessions, (s: Session) => s.id != id);
  }

  /** Revoking keeps the other sessions in order, repeated entries included: one
      session survives exactly when its id differs, and a concatenation is revoked
      from part by part. */
  lemma RevokePieces(a: seq<Session>, b: seq<Session>, s: Session, id: string)
    ensures Revoke([], id) == []
    ensures Revoke([s], id) == if s.id != id then [s] else []
    ensures Revoke(a + b, id) == Revoke(a, id) + Revoke(b, id)
  {
    FilterPieces(a, b, s, (x: Session) => x.id != id);
  }

  /** The Revoke button appears only on non-current sessions. */
  predicate CanRevoke(s: Session) {
    !s.current
  }

  /** "Active Now": the current sessions. */
  function ActiveCount(sessions: seq<Session>): (n: nat)
    ensures n <= |sessions|
  {
    Count(sessions, (s: Session) => s.current)
  }

  /** "Other Sessions": the rest. */
  function OtherCount(sessions: seq<Session>): (n: nat)
    ensures n <= |sessions|
  {
    Count(sessions, (s: Session) => !s.current)
  }

  /** The two overview counts add up to the total device count. */
  lemma OverviewAddsUp(sessions: seq<Session>)
    ensures ActiveCount(sessions) + OtherCount(sessions) == |sessions|
  {
    CountComplement(sessions, (s: Session) => s.current, (s: Session) => !s.current);
  }

  /** Revoking through the button, whose session is not current, never lowers the
      number of current sessions (when ids are distinct the revoked id belongs to that
      session alone). */
  lemma RevokeKeepsActive(sessions: seq<Session>, k: nat)
    requires k < |sessions| && CanRevoke(sessions[k])
    requires forall i, j :: 0 <= i < j < |sessions| ==> sessions[i].id != sessions[j].id
    ensures ActiveCount(Revoke(sessions, sessions[k].id)) == ActiveCount(sessions)
  {
    var id := sessions[k].id;
    forall i | 0 <= i < |sessions| && i != k ensures sessions[i].id != id {
      if i < k {
        assert sessions[i].id != sessions[k].id;
      } else {
        assert sessions[k].id != sessions[i].id;
      }
    }
    CountAfterFilter(sessions, (s: Session) => s.id != id, (s: Session) => s.current);
  }

  /** The icon `getDeviceIcon` picks. */
  datatype DeviceKind = Mobile | Desktop | Generic

  const MobileMarks := ["iPhone", "Android"]
  const DesktopMarks := ["Windows", "MacBook", "Linux"]

  /** Some mark occurs, case-sensitively, in the device name. */
  ghost predicate Marked(device: string, marks: seq<string>) {
    exists k :: 0 <= k < |marks| && Occurs(device, marks[k])
  }

  function DeviceIcon(device: string): (k: DeviceKind)
    ensures k == Mobile <==> Marked(device, MobileMarks)
    ensures k == Desktop <==> !Marked(device, MobileMarks) && Marked(device, DesktopMarks)
    ensures k == Generic <==> !Marked(device, MobileMarks) && !Marked(device, DesktopMarks)
  {
    var mobile := Contains(device, "iPhone") || Contains(device, "Android");
    assert mobile <==> Marked(device, MobileMarks) by {
      assert MobileMarks[0] == "iPhone" && MobileMarks[1] == "Android";
    }
    var desktop := Contains(device, "Windows") || Contains(device, "MacBook") || Contains(device, "Linux");
    assert desktop <==> Marked(device, DesktopMarks) by {
      assert DesktopMarks[0] == "Windows" && DesktopMarks[1] == "MacBook" && DesktopMarks[2] == "Linux";
    }
    if mobile then Mobile else if desktop then Desktop else Generic
  }

  /** `sessions.length === 1 ? 'device' : 'devices'`. */
  function DevicesLabel(n: nat): (w: string)
    ensures w == "device" <==> n == 1
    ensures w != "device" ==> w == "devices"
  {
    if n == 1 then "device" else "devices"
  }

  /** The three starting sessions show a desktop, a mobile and a desktop icon. */
  lemma InitialIcons(now: int)
    ensures DeviceIcon(InitialSessions(now)[0].device) == Desktop
    ensures DeviceIcon(InitialSessions(now)[1].device) == Mobile
    ensures DeviceIcon(InitialSessions(now)[2].device) == Desktop
  {
    MacIcon();
    PhoneIcon();
    WindowsIcon();
  }

  lemma MacIcon()
    ensures DeviceIcon("Chrome on MacBook Pro") == Desktop
  {
    var d := "Chrome on MacBook Pro";
    AbsentCharRulesOut(d, MobileMarks[0], 'i');
    AbsentCharRulesOut(d, MobileMarks[1], 'A');
    assert d[10..17] == "MacBook";
    assert OccursAt(d, DesktopMarks[1], 10);
  }

  lemma PhoneIcon()
    ensures DeviceIcon("Safari on iPhone") == Mobile
  {
    var d := "Safari on iPhone";
    assert d[10..16] == "iPhone";
    assert OccursAt(d, MobileMarks[0], 10);
  }

  lemma WindowsIcon()
    ensures DeviceIcon("Chrome on Windows") == Desktop
  {
    var d := "Chrome on Windows";
    AbsentCharRulesOut(d, MobileMarks[0], 'P');
    AbsentCharRulesOut(d, MobileMarks[1], 'A');
    assert d[10..17] == "Windows";
    assert OccursAt(d, DesktopMarks[0], 10);
  }
}

=== FILE: snooze.dfy ===
/** The snooze panel: preset delays, the two calendar presets, the snooze handler and
    the list of snoozed tasks. */
module Snooze {
  import opened Wrappers
  import opened Seqs
  import opened Calendar

  /** The panel's own view of a task. */
  datatype SnoozeTask = SnoozeTask(id: string, title: string, snoozedUntil: Option<int>)

  /** A menu entry: a fixed delay in minutes, or a date computed when it is chosen. */
  datatype SnoozeOption =
    | Delay(text: string, minutes: int)
    | TomorrowAtNine(text: string)
    | NextMondayAtNine(text: string)

  const SnoozeOptions: seq<SnoozeOption> := [
    Delay("5 minutes", 5),
    Delay("1 hour", 60),
    TomorrowAtNine("Tomorrow 9am"),
    NextMondayAtNine("Next Monday")
  ]

  /** `(8 - day) % 7 || 7`: days from weekday `day` (0 = Sunday) to the next Monday,
      a full week when `day` is itself a Monday. The operands are positive, so
      JavaScript's truncating `%` agrees with Dafny's. */
  function DaysToMonday(day: int): (n: int)
    requires 0 <= day <= 6
    ensures 1 <= n <= 7
    ensures (day + n) % 7 == 1
    ensures day == 1 ==> n == 7
  {
    var r := (8 - day) % 7;
    if r == 0 then 7 else r
  }

  /** The "Tomorrow 9am" preset: the next calendar day at 09:00:00.000. */
  function TomorrowNine(now: int): (r: int)
    ensures DayOf(r) == DayOf(now) + 1
    ensures TimeOfDay(r) == 9 * MsPerHour
  {
    SetHours(AddDays(now, 1), 9, 0, 0, 0)
  }

  /** The "Next Monday" preset: the first Monday strictly after today, at 09:00:00.000. */
  function NextMonday(now: int): (r: int)
    ensures 1 <= DayOf(r) - DayOf(now) <= 7
    ensures WeekDay(r) == 1
    ensures TimeOfDay(r) == 9 * MsPerHour
  {
    var n := DaysToMonday(WeekDay(now));
    WeekDayAfter(now, n);
    SetHours(AddDays(now, n), 9, 0, 0, 0)
  }

  /** The instant a menu entry snoozes until when chosen at `now`. */
  function OptionInstant(o: SnoozeOption, now: int): int {
    match o
    case Delay(_, m) => now + m * MsPerMinute
    case TomorrowAtNine(_) => TomorrowNine(now)
    case NextMondayAtNine(_) => NextMonday(now)
  }

  /** The call made to `onSnoozeTask`. */
  datatype SnoozeCall = SnoozeCall(taskId: string, until: int)

  /** What `handleSnooze` does: one call to `onSnoozeTask`, and the new open-menu id. */
  datatype SnoozeEffect = SnoozeEffect(call: SnoozeCall, openSnoozeId: Option<string>)

  /** `handleSnooze(taskId, minutes, customDate)` at `now`: a custom date wins;
      otherwise `minutes` from now, where an absent or zero `minutes` means 5. */
  function HandleSnooze(taskId: string, minutes: Option<int>, customDate: Option<int>, now: int): (r: SnoozeEffect)
    ensures r.call.taskId == taskId
    ensures r.openSnoozeId == None
    ensures customDate.Some? ==> r.call.until == customDate.value
    ensures customDate.None? && minutes.Some? && minutes.value != 0 ==>
      r.call.until == now + minutes.value * 60000
    ensures customDate.None? && (minutes.None? || minutes.value == 0) ==> r.call.until == now + 300000
  {
    var until := match customDate
      case Some(d) => d
      case None =>
        var m := if minutes.Some? && minutes.value != 0 then minutes.value else 5;
        now + m * MsPerMinute;
    SnoozeEffect(SnoozeCall(taskId, until), None)
  }

  /** The presets are five and sixty minutes, and choosing one through the handler
      snoozes for exactly that long. */
  lemma PresetDelays(taskId: string, now: int)
    ensures SnoozeOptions[0].Delay? && SnoozeOptions[0].minutes == 5
    ensures SnoozeOptions[1].Delay? && SnoozeOptions[1].minutes == 60
    ensures forall k :: 0 <= k < |SnoozeOptions| && SnoozeOptions[k].Delay? ==>
      HandleSnooze(taskId, Some(SnoozeOptions[k].minutes), None, now).call.until
        == OptionInstant(SnoozeOptions[k], now)
  {
  }

  /** `t.snoozedUntil` is set. */
  predicate IsSnoozed(t: SnoozeTask) {
    t.snoozedUntil.Some?
  }

  /** The tasks listed as snoozed: those with `snoozedUntil` set, in order. Its length
      is the figure on the panel's badge. */
  function SnoozedTasks(tasks: seq<SnoozeTask>): (r: seq<SnoozeTask>)
    ensures forall t :: t in r <==> t in tasks && t.snoozedUntil.Some?
    ensures |r| == 0 <==> forall i :: 0 <= i < |tasks| ==> tasks[i].snoozedUntil.None?
    ensures |r| == Count(tasks, IsSnoozed)
  {
    var r := Filter(tasks, IsSnoozed);
    assert |r| == Count(tasks, IsSnoozed);
    r
  }

  /** The snoozed list keeps the task order and repeated entries: one task is listed
      exactly when it is snoozed, and a concatenation is listed part by part. */
  lemma SnoozedTasksPieces(a: seq<SnoozeTask>, b: seq<SnoozeTask>, t: SnoozeTask)
    ensures SnoozedTasks([]) == []
    ensures SnoozedTasks([t]) == if t.snoozedUntil.Some? then [t] else []
    ensures SnoozedTasks(a + b) == SnoozedTasks(a) + SnoozedTasks(b)
  {
    FilterPieces(a, b, t, IsSnoozed);
  }

  /** The panel renders nothing exactly when no task is snoozed. */
  function PanelShown(tasks: seq<SnoozeTask>): (shown: bool)
    ensures shown <==> exists i :: 0 <= i < |tasks| && tasks[i].snoozedUntil.Some?
  {
    |SnoozedTasks(tasks)| != 0
  }
}

=== FILE: task.dfy ===
/** The task record shared by the dashboard components, and `Partial<Task>` updates. */
module TaskModel {
  import opened Wrappers

  datatype Status = Pending | InProgress | Completed
  datatype Priority = Low | Medium | High
  datatype Recurrence = NoRecurrence | Daily | Weekly | Monthly

  /** The wire spelling of a status, also the id of its kanban column. */
  function StatusName(s: Status): string {
    match s
    case Pending => "pending"
    case InProgress => "in-progress"
    case Completed => "completed"
  }

  function PriorityName(p: Priority): string {
    match p
    case Low => "low"
    case Medium => "medium"
    case High => "high"
  }

  function RecurrenceName(r: Recurrence): string {
    match r
    case NoRecurrence => "none"
    case Daily => "daily"
    case Weekly => "weekly"
    case Monthly => "monthly"
  }

  /** Membership in `z.enum(["low", "medium", "high"])`. */
  function ParsePriority(s: string): (r: Option<Priority>)
    ensures forall p :: r == Some(p) <==> PriorityName(p) == s
  {
    if s == "low" then Some(Low)
    else if s == "medium" then Some(Medium)
    else if s == "high" then Some(High)
    else None
  }

  /** Membership in `z.enum(["none", "daily", "weekly", "monthly"])`. */
  function ParseRecurrence(s: string): (r: Option<Recurrence>)
    ensures forall c :: r == Some(c) <==> RecurrenceName(c) == s
  {
    if s == "none" then Some(NoRecurrence)
    else if s == "daily" then Some(Daily)
    else if s == "weekly" then Some(Weekly)
    else if s == "monthly" then Some(Monthly)
    else None
  }

  /** A task as the dashboard holds it. Instants (`createdAt`, `dueDate`) are
      milliseconds on the local clock. */
  datatype Task = Task(
    id: string,
    title: string,
    description: Option<string>,
    status: Status,
    createdAt: int,
    priority: Option<Priority>,
    dueDate: Option<int>,
    recurrence: Option<Recurrence>)

  /** One key of a `Partial<Task>`: absent, or present with a value. An optional
      field present with `undefined` is `Put(None)`, and spreading it clears the field. */
  datatype Field<T> = Keep | Put(value: T) {
    function Over(current: T): T {
      if Put? then value else current
    }
  }

  datatype TaskPatch = TaskPatch(
    id: Field<string>,
    title: Field<string>,
    description: Field<Option<string>>,
    status: Field<Status>,
    createdAt: Field<int>,
    priority: Field<Option<Priority>>,
    dueDate: Field<Option<int>>,
    recurrence: Field<Option<Recurrence>>)

  /** The patch with no keys, `{}`. */
  const EmptyPatch := TaskPatch(Keep, Keep, Keep, Keep, Keep, Keep, Keep, Keep)

  /** `{ status: s }`. */
  function StatusPatch(s: Status): (p: TaskPatch)
    ensures p.status == Put(s)
    ensures p.(status := Keep) == EmptyPatch
  {
    EmptyPatch.(status := Put(s))
  }

  /** `{ ...t, ...patch }`: every key present in the patch overrides, every other
      field keeps the task's value. */
  function Merge(t: Task, patch: TaskPatch): (r: Task)
    ensures patch.id.Keep? ==> r.id == t.id
    ensures patch.id.Put? ==> r.id == patch.id.value
    ensures patch.title.Keep? ==> r.title == t.title
    ensures patch.title.Put? ==> r.title == patch.title.value
    ensures patch.description.Keep? ==> r.description == t.description
    ensures patch.description.Put? ==> r.description == patch.description.value
    ensures patch.status.Keep? ==> r.status == t.status
    ensures patch.status.Put? ==> r.status == patch.status.value
    ensures patch.createdAt.Keep? ==> r.createdAt == t.createdAt
    ensures patch.createdAt.Put? ==> r.createdAt == patch.createdAt.value
    ensures patch.priority.Keep? ==> r.priority == t.priority
    ensures patch.priority.Put? ==> r.priority == patch.priority.value
    ensures patch.dueDate.Keep? ==> r.dueDate == t.dueDate
    ensures patch.dueDate.Put? ==> r.dueDate == patch.dueDate.value
    ensures patch.recurrence.Keep? ==> r.recurrence == t.recurrence
    ensures patch.recurrence.Put? ==> r.recurrence == patch.recurrence.value
  {
    Task(
      patch.id.Over(t.id),
      patch.title.Over(t.title),
      patch.description.Over(t.description),
      patch.status.Over(t.status),
      patch.createdAt.Over(t.createdAt),
      patch.priority.Over(t.priority),
      patch.dueDate.Over(t.dueDate),
      patch.recurrence.Over(t.recurrence))
  }

  /** Spreading `{}` changes nothing, and spreading the same patch twice is the same as once. */
  lemma MergeLaws(t: Task, patch: TaskPatch)
    ensures Merge(t, EmptyPatch) == t
    ensures Merge(Merge(t, patch), patch) == Merge(t, patch)
  {
  }
}

=== FILE: task_card.dfy ===
/** One task card: its edit form, the status toggle and the delete button, as the
    callbacks each user action fires. */
module TaskCard {
  import opened Wrappers
  import opened TaskModel
  import opened Forms
  import Dashboard

  /** The edit form's values as the schema receives them. */
  datatype EditForm = EditForm(title: string, description: Option<string>)

  /** The untouched form. It starts from the task's title and description; a task
      without a description leaves the textarea with no default, so the form reads its
      empty text. Saving it untouched changes nothing for a task with a description and
      gives a task without one the empty description. It passes the schema exactly when
      the task has a title. */
  function DefaultForm(task: Task): (f: EditForm)
    ensures task.description.Some? ==> Merge(task, EditPatch(f)) == task
    ensures task.description.None? ==> Merge(task, EditPatch(f)) == task.(description := Some(""))
    ensures ValidateEdit(f) == [] <==> |task.title| >= 1
  {
    EditForm(task.title, Some(task.description.GetOr("")))
  }

  const TitleRequired := "Title is required"

  /** The edit schema: a title of at least one character; the description is free. */
  function ValidateEdit(f: EditForm): (issues: seq<Issue>)
    ensures issues == [] <==> |f.title| >= 1
    ensures issues != [] ==> issues == [Issue("title", TitleRequired)]
  {
    AtLeast("title", f.title, 1, TitleRequired)
  }

  /** A callback the card fires, in the order it fires them. */
  datatype CardEvent =
    | Updated(id: string, updates: TaskPatch)
    | Cancelled
    | Deleted(id: string)
    | EditClicked

  /** `{ title, description }`: the patch a saved edit sends. */
  function EditPatch(f: EditForm): (p: TaskPatch)
    ensures p.title == Put(f.title) && p.description == Put(f.description)
    ensures p.(title := Keep, description := Keep) == EmptyPatch
  {
    EmptyPatch.(title := Put(f.title), description := Put(f.description))
  }

  /** `handleSubmit(onSubmit)`: an invalid form fires nothing and shows its error; a
      valid one sends the edit and then closes the editor. */
  function OnSubmit(task: Task, f: EditForm): (events: seq<CardEvent>)
    ensures events == [] <==> ValidateEdit(f) != []
    ensures events != [] ==> events == [Updated(task.id, EditPatch(f)), Cancelled]
  {
    if ValidateEdit(f) == [] then [Updated(task.id, EditPatch(f)), Cancelled] else []
  }

  /** The status the round button asks for: a completed task goes back to pending,
      any other task becomes completed. */
  function ToggleStatus(s: Status): (r: Status)
    ensures s == Completed <==> r == Pending
    ensures r != InProgress
  {
    if s == Completed then Pending else Completed
  }

  /** Toggling twice returns a pending or completed task to where it was; an in-progress
      task ends up pending. */
  lemma ToggleTwice(s: Status)
    ensures s != InProgress ==> ToggleStatus(ToggleStatus(s)) == s
    ensures s == InProgress ==> ToggleStatus(ToggleStatus(s)) == Pending
  {
  }

  /** The round button: one update for this task that sets the toggled status and
      carries no other key. */
  function OnToggle(task: Task): (e: CardEvent)
    ensures e.Updated? && e.id == task.id
    ensures e.updates.(status := Keep) == EmptyPatch
    ensures Merge(task, e.updates) == task.(status := ToggleStatus(task.status))
  {
    Updated(task.id, StatusPatch(ToggleStatus(task.status)))
  }

  /** `handleDelete`: after the fade-out the card asks, once, for a deletion, and the
      id it sends makes the dashboard drop exactly the tasks sharing this task's id. */
  function OnDelete(task: Task): (events: seq<CardEvent>)
    ensures |events| == 1 && events[0].Deleted?
    ensures forall tasks: seq<Task>, u :: u in Dashboard.DeleteTasks(tasks, events[0].id) <==>
      u in tasks && u.id != task.id
  {
    [Deleted(task.id)]
  }

  /** A saved edit, merged into the task, changes exactly the title and description. */
  lemma SavedEditChangesTitleAndDescription(task: Task, f: EditForm)
    requires |f.title| >= 1
    ensures var events := OnSubmit(task, f);
      && events[0].Updated?
      && Merge(task, events[0].updates) == task.(title := f.title, description := f.description)
  {
  }

  /** Saving the untouched form of a titled task sends an update and closes the
      editor. It leaves a task with a description as it was, and gives a task without
      one the empty description. */
  lemma SaveUnchanged(task: Task)
    requires |task.title| >= 1
    ensures var events := OnSubmit(task, DefaultForm(task));
      && events != []
      && (task.description.Some? ==> Merge(task, events[0].updates) == task)
      && (task.description.None? ==> Merge(task, events[0].updates) == task.(description := Some("")))
  {
  }

  /** The toggle, merged into the task, changes only its status. */
  lemma ToggleChangesOnlyStatus(task: Task)
    ensures Merge(task, OnToggle(task).updates) == task.(status := ToggleStatus(task.status))
  {
  }
}

=== FILE: task_list.dfy ===
/** The list view: a loading placeholder, the empty state, or one card per task, with
    at most the card whose id is being edited showing its form. */
module TaskList {
  import opened Wrappers
  import opened TaskModel
  import TaskCard

  datatype Card = Card(task: Task, editing: bool)

  datatype ListView = Loading | Empty | Cards(cards: seq<Card>)

  /** What `TaskList` renders. */
  function Render(tasks: seq<Task>, isLoading: bool, editingId: Option<string>): (v: ListView)
    ensures v.Loading? <==> isLoading
    ensures v.Empty? <==> !isLoading && |tasks| == 0
    ensures v.Cards? ==> |v.cards| == |tasks|
    ensures v.Cards? ==> forall i :: 0 <= i < |tasks| ==>
      v.cards[i].task == tasks[i] && (v.cards[i].editing <==> editingId == Some(tasks[i].id))
  {
    if isLoading then Loading
    else if |tasks| == 0 then Empty
    else Cards(seq(|tasks|, i requires 0 <= i < |tasks| => Card(tasks[i], editingId == Some(tasks[i].id))))
  }

  /** The editor state after a card of `task` fires `e`: the edit button opens that
      card's editor, cancel (also fired by a save) closes whichever was open. */
  function AfterEvent(editingId: Option<string>, task: Task, e: TaskCard.CardEvent): (r: Option<string>)
    ensures e.EditClicked? ==> r == Some(task.id)
    ensures e.Cancelled? ==> r == None
    ensures !e.EditClicked? && !e.Cancelled? ==> r == editingId
  {
    match e
    case EditClicked => Some(task.id)
    case Cancelled => None
    case _ => editingId
  }

  function AfterEvents(editingId: Option<string>, task: Task, events: seq<TaskCard.CardEvent>): Option<string>
    decreases |events|
  {
    if |events| == 0 then editingId else AfterEvents(AfterEvent(editingId, task, events[0]), task, events[1..])
  }

  /** No two tasks share an id. */
  predicate UniqueIds(tasks: seq<Task>) {
    forall i, j :: 0 <= i < j < |tasks| ==> tasks[i].id != tasks[j].id
  }

  /** With distinct ids at most one card shows its edit form. */
  lemma AtMostOneEditor(tasks: seq<Task>, editingId: Option<string>)
    requires UniqueIds(tasks)
    ensures var v := Render(tasks, false, editingId);
      v.Cards? ==> forall i, j :: 0 <= i < |v.cards| && 0 <= j < |v.cards| && v.cards[i].editing && v.cards[j].editing ==> i == j
  {
    var v := Render(tasks, false, editingId);
    if v.Cards? {
      forall i, j | 0 <= i < |tasks| && 0 <= j < |tasks| && i != j
        ensures !(v.cards[i].editing && v.cards[j].editing)
      {
        if i < j {
          assert tasks[i].id != tasks[j].id;
        } else {
          assert tasks[j].id != tasks[i].id;
        }
      }
    }
  }

  /** Clicking edit opens exactly that card's form. */
  lemma EditOpensCard(tasks: seq<Task>, k: nat, editingId: Option<string>)
    requires UniqueIds(tasks) && k < |tasks|
    ensures var v := Render(tasks, false, AfterEvent(editingId, tasks[k], TaskCard.EditClicked));
      v.Cards? && forall i :: 0 <= i < |tasks| ==> (v.cards[i].editing <==> i == k)
  {
    var v := Render(tasks, false, Some(tasks[k].id));
    forall i | 0 <= i < |tasks| ensures v.cards[i].editing <==> i == k {
      if i < k {
        assert tasks[i].id != tasks[k].id;
      } else if k < i {
        assert tasks[k].id != tasks[i].id;
      }
    }
  }

  /** A valid save closes the editor; an invalid one leaves it open. */
  lemma SaveClosesEditor(task: Task, f: TaskCard.EditForm)
    ensures |f.title| >= 1 ==> AfterEvents(Some(task.id), task, TaskCard.OnSubmit(task, f)) == None
    ensures |f.title| == 0 ==> AfterEvents(Some(task.id), task, TaskCard.OnSubmit(task, f)) == Some(task.id)
  {
    var events := TaskCard.OnSubmit(task, f);
    if |f.title| >= 1 {
      var after := AfterEvent(Some(task.id), task, events[0]);
      assert after == Some(task.id);
      assert AfterEvents(Some(task.id), task, events) == AfterEvents(after, task, events[1..]);
      assert events[1..] == [TaskCard.Cancelled];
      assert AfterEvents(after, task, events[1..]) == AfterEvents(None, task, []);
    }
  }
}

=== FILE: text.dfy ===
/** String primitives of the JavaScript runtime that the components use:
    `String.prototype.includes`, `startsWith`, `endsWith`, `trim` and the
    two case-insensitive comparisons (`toLowerCase` and a `/i` regular expression). */
module Text {

  /** `sub` sits in `s` starting at index `i`. */
  ghost predicate OccursAt(s: string, sub: string, i: int) {
    0 <= i && i + |sub| <= |s| && s[i..i + |sub|] == sub
  }

  /** `sub` occurs somewhere in `s`: the reference meaning of `s.includes(sub)`. */
  ghost predicate Occurs(s: string, sub: string) {
    exists i :: OccursAt(s, sub, i)
  }

  /** `s.includes(sub)`, computed by trying every start position from the left. */
  function Contains(s: string, sub: string): (b: bool)
    ensures b <==> Occurs(s, sub)
    decreases |s|
  {
    if |sub| > |s| then
      assert !Occurs(s, sub);
      false
    else if s[..|sub|] == sub then
      assert OccursAt(s, sub, 0);
      true
    else
      var rest := Contains(s[1..], sub);
      assert rest ==> Occurs(s, sub) by {
        if rest {
          var i :| OccursAt(s[1..], sub, i);
          assert s[1..][i..i + |sub|] == s[i + 1..i + 1 + |sub|];
          assert OccursAt(s, sub, i + 1);
        }
      }
      assert Occurs(s, sub) ==> rest by {
        if Occurs(s, sub) {
          var i :| OccursAt(s, sub, i);
          assert i != 0;
          assert s[1..][i - 1..i - 1 + |sub|] == s[i..i + |sub|];
          assert OccursAt(s[1..], sub, i - 1);
        }
      }
      rest
  }

  /** A word holding a character that `s` lacks cannot occur in `s`. */
  lemma AbsentCharRulesOut(s: string, sub: string, c: char)
    requires c in sub && c !in s
    ensures !Occurs(s, sub)
  {
    var j :| 0 <= j < |sub| && sub[j] == c;
    forall i | 0 <= i && i + |sub| <= |s| ensures !OccursAt(s, sub, i) {
      assert s[i..i + |sub|][j] == s[i + j];
      assert s[i + j] in s;
    }
  }

  /** `s.startsWith(prefix)`. */
  predicate StartsWith(s: string, prefix: string) {
    |prefix| <= |s| && s[..|prefix|] == prefix
  }

  /** `s.endsWith(suffix)`. */
  predicate EndsWith(s: string, suffix: string) {
    |suffix| <= |s| && s[|s| - |suffix|..] == suffix
  }

  /** Lower-cases the 26 ASCII capitals and leaves every other character alone. This
      is how a non-Unicode `/i` regular expression compares characters: its case
      folding never turns a non-ASCII character into an ASCII one. */
  function AsciiLowerChar(c: char): char {
    if 'A' <= c <= 'Z' then (c as int + 32) as char else c
  }

  function AsciiLower(s: string): (r: string)
    ensures |r| == |s|
    ensures forall i :: 0 <= i < |s| ==> r[i] == AsciiLowerChar(s[i])
  {
    seq(|s|, i requires 0 <= i < |s| => AsciiLowerChar(s[i]))
  }

  /** `String.prototype.toLowerCase` as far as searching for lower-case ASCII words
      is concerned: ASCII capitals and the Kelvin sign (U+212A, lower-cased to 'k')
      are the only characters whose lower case is ASCII. (U+0130 lower-cases to 'i'
      followed by a combining dot, which no searched word can continue past.) */
  function KeywordLowerChar(c: char): char {
    if c == '\U{212A}' then 'k' else AsciiLowerChar(c)
  }

  function KeywordLower(s: string): (r: string)
    ensures |r| == |s|
    ensures forall i :: 0 <= i < |s| ==> r[i] == KeywordLowerChar(s[i])
  {
    seq(|s|, i requires 0 <= i < |s| => KeywordLowerChar(s[i]))
  }

  /** The characters `String.prototype.trim` removes: the ECMAScript WhiteSpace
      (tab, vertical tab, form feed, space, no-break space, byte-order mark and the
      Unicode space separators) and LineTerminator code points. */
  predicate IsJsWhitespace(c: char) {
    || c == '\t' || c == '\n' || c == '\U{000B}' || c == '\U{000C}' || c == '\r' || c == ' '
    || c == '\U{00A0}' || c == '\U{1680}' || ('\U{2000}' <= c <= '\U{200A}')
    || c == '\U{2028}' || c == '\U{2029}' || c == '\U{202F}' || c == '\U{205F}'
    || c == '\U{3000}' || c == '\U{FEFF}'
  }

  /** Every character of `s` is whitespace: the reference meaning of a falsy `s.trim()`. */
  ghost predicate IsBlank(s: string) {
    forall i :: 0 <= i < |s| ==> IsJsWhitespace(s[i])
  }

  /** `s` with its leading whitespace removed. */
  function TrimStart(s: string): (r: string)
    ensures |r| <= |s| && r == s[|s| - |r|..]
    ensures |r| > 0 ==> !IsJsWhitespace(r[0])
    ensures IsBlank(s[..|s| - |r|])
    decreases |s|
  {
    if |s| > 0 && IsJsWhitespace(s[0]) then
      var r := TrimStart(s[1..]);
      assert s[1..][..|s| - 1 - |r|] == s[1..|s| - |r|];
      r
    else s
  }

  /** `s` with its trailing whitespace removed. */
  function TrimEnd(s: string): (r: string)
    ensures |r| <= |s| && r == s[..|r|]
    ensures |r| > 0 ==> !IsJsWhitespace(r[|r| - 1])
    ensures IsBlank(s[|r|..])
    decreases |s|
  {
    if |s| > 0 && IsJsWhitespace(s[|s| - 1]) then
      var r := TrimEnd(s[..|s| - 1]);
      assert s[..|s| - 1][..|r|] == s[..|r|];
      r
    else s
  }

  /** `s.trim()`. */
  function Trim(s: string): string {
    TrimEnd(TrimStart(s))
  }

  /** `s.trim()` is the empty (falsy) string exactly when `s` is all whitespace. */
  lemma TrimEmptyIffBlank(s: string)
    ensures Trim(s) == "" <==> IsBlank(s)
  {
    var t := TrimStart(s);
    if Trim(s) == "" {
      assert t[0..] == t;
      assert |t| == 0;
      assert s[..|s|] == s;
    }
  }
}

=== FILE: wrappers.dfy ===
/** Optional values, standing for the source's `undefined`/`null` fields. */
module Wrappers {

  datatype Option<+T> = None | Some(value: T) {

    /** Returns the value held in Some, or `default` for None (the `x ?? d` idiom). */
    function GetOr(default: T): T {
      match this
      case Some(v) => v
      case None => default
    }
  }
}
